=== FILE: README.md ===
# FlyControlWEB front-end core, modelled in Dafny

FlyControlWEB is the web front end of a flight-simulation control
service. Most of it is a thin HTTP client. This project models the logic
it carries itself:

- **Permissions** (`src/utils/permission.ts`):
  - 32 single-bit permission nodes;
  - the name-to-node table;
  - the permission record decoded from a user's integer mask;
  - the single, all, any and by-name queries on that record.
- **Session** (`src/store/user.ts`): the login session and its lifecycle:
  - taking a login payload;
  - restoring a stored session at start-up;
  - the refresh timer and the token refresh;
  - login, registration and logout;
  - the short-circuits of the three availability checks.
- **MediaUrl**: the rule that turns a relative avatar or image path into
  a URL on the backend.
- **ServerConfig** (`src/store/server_config.ts`):
  - the default form limits;
  - the username, password and email form rules;
  - the ordered CID validator;
  - the rating and facility name lookups, which read row `value + 1`.
- **Activities** (`src/store/activity.ts`):
  - the airport autocomplete search;
  - the grouping of activities by day, where the last one of a day wins;
  - the image URL of a fetched activity;
  - the log-in guards of the four sign-up actions.
- **Countdown** (`src/utils/timer.ts`): the countdown `Timer` as a state
  record. Each firing of its interval is an explicit `Tick`.
- **SizeFormat** (`src/utils/utils.ts`): the choice of unit for a byte
  count.

Two supporting modules carry no source logic of their own:

- **JsCore** holds the JavaScript behaviour the core relies on. It has
  the int32 view of a number for bitwise `&`, and decimal `String(n)` for
  an integer of magnitude below 10^21.
  It has `Number.parseInt`, which reads the longest numeric prefix and
  accepts a sign and a `0x` prefix. It also has `startsWith`,
  `indexOf` and ASCII `toUpperCase`.
- **Bits** holds facts about `bv32` masks: single bits, submasks, and
  the bitwise or of a list.

How the surroundings are represented:

- A server reply is an input:
  - `Reply(status, body)` is a settled request;
  - `Rejected` is a request the response interceptor rejects.
- An awaited rejection makes the calling store function throw, modelled
  as the `Threw` outcome.
- The `exp` claim of a token is an abstract function `exp`.
- The current time is an integer `now`, in milliseconds.
- Date formatting is a pair of abstract functions (`Formats`).
- Timers are explicit events.
- Local storage is a `map<string, string>`.

## Model

| member | source | states |
|---|---|---|
| Permissions.ValueIsBit | src/utils/permission.ts:1-34 | each node's value is the single bit `1 << position`, where the position is the node's place in the declaration |
| Permissions.NodeIsSingleBit | src/utils/permission.ts:1-34 | every node's value has exactly one bit set, the bit at the node's own position |
| Permissions.NodesAreDistinctBits | src/utils/permission.ts:1-34 | two different nodes never share a value |
| Permissions.PositionInjective | src/utils/permission.ts:1-34 | two nodes occupy the same bit position exactly when they are the same node |
| Permissions.IndexOfNodeAt | src/utils/permission.ts:1-34 | the declaration order lists each of the 32 nodes once: reading the node at position i and asking its position gives back i |
| Permissions.NodeTable | src/utils/permission.ts:37-70 | the table has 32 pairs, and each node sits at its declaration position under its own name |
| Permissions.NameInjective | src/utils/permission.ts:37-70 | two nodes have the same name exactly when they are the same node, so the table's keys and the record's names tell the nodes apart |
| Permissions.Get | src/utils/permission.ts:254 | a `Map` built from pairs answers nothing exactly when no pair has the key; otherwise it answers the value of the last pair with that key |
| Permissions.TableKeysDistinct | src/utils/permission.ts:37-70 | no two of the 32 pairs of the name table share a key, so no pair overwrites another |
| Permissions.LookupByName | src/utils/permission.ts:37-70 | looking up a node's own name gives that node |
| Permissions.LookupOnlyNames | src/utils/permission.ts:37-70 | the table answers a node only for that node's own name |
| Permissions.FromMask | src/utils/permission.ts:75-238 | every node has an entry; the entry carries the node's own name, and its flag is set exactly when the mask has the node's bit |
| Permissions.HoldsIffBitSet | src/utils/permission.ts:75-238 | the test `(permission & node) == node` holds exactly when the mask has the bit at the node's position |
| Permissions.HoldsIffMeets | src/utils/permission.ts:75-238 | that test holds exactly when the node's value and the mask have a bit in common |
| Permissions.FlagIsHolds | src/utils/permission.ts:240-242 | `hasPermission(n)` on the record of a mask is exactly the test `(mask & n) == n` |
| Permissions.NewPermission | src/utils/permission.ts:75-80 | every entry of the record carries its node's name, and a node is held exactly when `(permission & node) == node` on the int32 view of the number |
| Permissions.LowBitsDecide | src/utils/permission.ts:75-80 | two numbers that differ by a multiple of 2^32 build the same record, because `&` works on their int32 view |
| Permissions.MinusOneGrantsEverything | src/utils/permission.ts:75-80 | the number -1, all ones in the int32 view, grants every node |
| Permissions.ZeroGrantsNothing | src/utils/permission.ts:80-235 | mask 0 grants no node |
| Permissions.AllOnesGrantsEverything | src/utils/permission.ts:80-235 | the all-ones mask grants every node |
| Permissions.SignBitIsBroadcast | src/utils/permission.ts:232-236 | the sign bit alone grants `ClientSendBroadcastMessage` and no other node |
| Permissions.MoreBitsMorePermissions | src/utils/permission.ts:80-235 | if every bit of mask p is also in mask q, every node granted under p is granted under q |
| Permissions.HasAnyPermissions | src/utils/permission.ts:244-251 | the answer is true exactly when some listed node is held, so an empty list answers false |
| Permissions.HasPermissions | src/utils/permission.ts:261-268 | the answer is true exactly when every listed node is held, so an empty list answers true |
| Permissions.HoldsAnyIffMeets | src/utils/permission.ts:244-251 | some listed node is held exactly when the bitwise or of their values meets the mask |
| Permissions.HoldsAllIffSubMask | src/utils/permission.ts:261-268 | every listed node is held exactly when the bitwise or of their values lies within the mask |
| Permissions.SomeHeldIsMeets | src/utils/permission.ts:244-251 | on the record of a mask, "some listed node is held" is the test that the nodes' combined mask meets it |
| Permissions.AllHeldIsSubMask | src/utils/permission.ts:261-268 | on the record of a mask, "every listed node is held" is the test that the nodes' combined mask lies within it |
| Permissions.HasPermissionString | src/utils/permission.ts:253-259 | a name the table does not know answers false; a known name answers `hasPermission` of the node the table gives |
| Permissions.HasPermissionStringByName | src/utils/permission.ts:253-259 | `hasPermissionString(s)` holds exactly when s is the name of some node that is held |
| MediaUrl.Normalise | src/store/user.ts:23-25 | a URL that starts with "http", or is empty, is kept; any other becomes the backend URL, a slash, then the URL |
| MediaUrl.UrlIsSuffix | src/store/activity.ts:29-31 | the received URL always survives as the tail of the result, and the result is empty only when the URL was |
| MediaUrl.PrefixedStartsWithHttp | src/store/user.ts:48-50 | a prefixed URL starts with "http" exactly when the backend URL does |
| MediaUrl.NormaliseIdempotent | src/store/user.ts:86-88 | applying the rule again to a prefixed URL changes nothing exactly when the backend URL is absolute |
| Session.NewStore | src/store/user.ts:11-18 | the store starts logged out, with no timer and empty tokens, over whatever local storage holds |
| Session.NewStoreIsConsistent | src/store/user.ts:11-18 | the new store satisfies the session invariant |
| Session.Received | src/store/user.ts:23-25 | the kept user record differs from the received one only in its normalised avatar URL |
| Session.DecodeResponse | src/store/user.ts:20-31 | the store is logged in with the payload's user, tokens and permission record; both tokens are written to storage; the timer is untouched; the invariant holds afterwards |
| Session.VerifyTokenExpired | src/store/user.ts:103-107 | the answer is true exactly when the token's expiry, in milliseconds, is after now, so true means still valid |
| Session.ValidityIsMonotone | src/store/user.ts:103-107 | a token valid now was valid at every earlier moment |
| Session.SetFlushTokenTimer | src/store/user.ts:69-75 | only a logged-in store without a timer arms one; it fires 60 seconds before the access token expires; nothing else changes |
| Session.ClearTimer | src/store/user.ts:141-143 | clearing keeps the handle in the variable but stops it from firing |
| Session.Logout | src/store/user.ts:134-145 | the store is logged out with no user and empty tokens; both storage keys are removed and every other key is kept; the handle stays but cannot fire; the permission record is kept |
| Session.LogoutIdempotent | src/store/user.ts:134-145 | logging out twice is logging out once |
| Session.FlushStart | src/store/user.ts:78 | the refresh marks the store logged out before its request settles, and changes nothing else |
| Session.FlushAccessToken | src/store/user.ts:77-101 | a rejected request leaves the store logged out and throws. A settled one returns the final login state, which is true exactly on status 200. On 200 the access token is replaced, the flush token is replaced only when the new one is non-empty, and a new timer is armed. Otherwise the store is logged out with no timer. The invariant is kept |
| Session.Login | src/store/user.ts:109-118 | true exactly on status 200, which takes the session, drops the old handle and arms a new timer; any other status changes nothing; a rejection throws |
| Session.Register | src/store/user.ts:120-127 | true exactly on status 200, which takes the session but arms no timer; the timer is never touched |
| Session.FlushFinish | src/store/user.ts:79-100 | a rejected request throws and changes nothing. A settled one answers the store's login state at that moment. On 200 the session is taken and a new timer armed. On any other status only the handle changes: it is replaced by a new live one when the store is logged in again, and dropped otherwise. The invariant is kept |
| Session.FireTimer | src/store/user.ts:73-78 | a live handle is spent and the store counts as logged out while the refresh is in flight; a cleared or spent handle does nothing; the invariant is kept |
| Session.OnTimeout | src/store/user.ts:73 | only a live handle runs the refresh, which then settles with nothing in between; the invariant is kept |
| Session.LoginDuringRefresh | src/store/user.ts:77-118 | when a login settles while a refresh is in flight and the refresh then fails, the refresh answers true and replaces the login's still-live handle with a new one |
| Session.RejectedRefreshStopsRefreshing | src/store/user.ts:77-101 | after a rejected refresh the store is logged out with a spent handle, so no later arming or firing changes it |
| Session.GrantedRefreshReschedules | src/store/user.ts:84-99 | a granted refresh stays logged in and arms exactly one timer, due 60 seconds before the new token expires |
| Session.ChoosePath | src/store/user.ts:34-65 | the start-up branch: with no non-empty stored flush token, nothing. With a valid stored access token, the profile path using that token. Otherwise a valid flush token means refresh, and if both are stale nothing |
| Session.InitUser | src/store/user.ts:33-67 | on each branch the result is as the source describes: unchanged (apart from the timer) when nothing is stored or both tokens are stale; logged in with the stored tokens after a 200 profile; logged in after a 200 refresh; logged out with storage cleared after a non-200 reply. The invariant is kept |
| Session.RunKeepsConsistent | src/store/user.ts:20-145 | after any interleaving of logins, registrations, logouts, timer firings, refresh settlings and start-ups, a logged-in store holds a user, the permission record built from that user's mask, and both tokens mirrored in storage |
| Session.CheckCid | src/store/user.ts:171-177 | a CID of zero or below counts as available without a request; otherwise the query carries the CID's decimal text (for a CID below 10^21), and the check throws exactly when the request is rejected |
| Session.CheckUsername | src/store/user.ts:179-185 | the empty name counts as available without a request; otherwise the query carries the name |
| Session.CheckEmail | src/store/user.ts:187-193 | the empty address counts as available without a request; otherwise the query carries the address |
| Session.CidQueryRoundTrip | src/store/user.ts:175 | the CID text in the availability query parses back to the same number |
| Session.ParamValue | src/store/user.ts:183 | the value of a query parameter is the longest prefix of the rest of the query without `&` or `#` |
| Session.ParamValueRoundTrip | src/store/user.ts:183 | a value reads back verbatim exactly when it holds no `&` or `#` |
| Session.UsernameQueryRoundTrip | src/store/user.ts:183 | the name in the availability query reads back as the same name exactly when it holds no `&` or `#` |
| Session.EmailQueryRoundTrip | src/store/user.ts:191 | the address in the availability query reads back as the same address exactly when it holds no `&` or `#` |
| ServerConfig.DefaultLengthRules | src/store/server_config.ts:10-19 | with the default limits a username needs 4 to 16 characters, a password 6 to 64 and an email 4 to 64 |
| ServerConfig.UsernameRegexMeansPattern | src/store/server_config.ts:45 | the anchored pattern accepts exactly a letter or underscore followed by one or more letters, digits or underscores |
| ServerConfig.UsernamePatternShape | src/store/server_config.ts:45 | an accepted name has at least two characters and does not start with a digit |
| ServerConfig.Validate | src/store/server_config.ts:42-132 | a field's rules run in order and the first that fails gives the error. A field passes exactly when no rule fails. A built-in rule does not run on an empty value, because no rule is marked required |
| ServerConfig.AvailabilityVerdict | src/store/server_config.ts:56-62 | the availability rule passes exactly when the check answers true |
| ServerConfig.UsernameField | src/store/server_config.ts:42-66 | an empty name passes. Any other passes exactly when it matches the pattern, fits the length limits and is available. A pattern failure is reported first, then a length failure |
| ServerConfig.UsernameFieldFollowsRules | src/store/server_config.ts:42-66 | the username field is the rule list pattern, length, availability evaluated in order |
| ServerConfig.AcceptedUsernameShape | src/store/server_config.ts:42-66 | an accepted non-empty username fits the pattern and, under the defaults, has 4 to 16 characters |
| ServerConfig.PatternNameReadsBack | src/store/server_config.ts:45-57 | a name the pattern accepts is read back from the availability query unchanged |
| ServerConfig.PasswordField | src/store/server_config.ts:68-77 | an empty password passes. Any other passes exactly when its length is within the limits, and otherwise the error is the length |
| ServerConfig.PasswordFieldFollowsRules | src/store/server_config.ts:68-77 | the password field is its one length rule evaluated as the form library does |
| ServerConfig.EmailField | src/store/server_config.ts:79-99 | an empty address passes. Any other passes exactly when it is an e-mail address, fits the limits and is available. A format failure is reported first, then a length failure |
| ServerConfig.EmailFieldFollowsRules | src/store/server_config.ts:79-99 | the e-mail field is the rule list format, length, availability evaluated in order |
| ServerConfig.EmptyValues | src/store/server_config.ts:42-132 | an empty username, password or address passes, while an empty CID reaches the validator and is refused as not a number |
| ServerConfig.CidChain | src/store/server_config.ts:105-122 | the first failing check decides, in order: not a number, below 0, below the minimum, above the maximum. The availability request is reached exactly when the parsed number lies within the limits, and it carries that number |
| ServerConfig.CidValidator | src/store/server_config.ts:105-128 | the custom validator alone refuses exactly when the chain fails. It accepts exactly when the chain reaches the availability request and the check answers true |
| ServerConfig.CidVerdictError | src/store/server_config.ts:105-128 | the validator reports no error exactly when it accepts, and a chain error exactly when it refuses |
| ServerConfig.CidField | src/store/server_config.ts:101-132 | a non-empty value with a non-digit is refused by the pattern rule, before the validator runs; an empty value is refused as not a number |
| ServerConfig.CidFieldFollowsRules | src/store/server_config.ts:101-132 | the CID field is the rule list pattern, validator evaluated in order |
| ServerConfig.CidFieldAccepts | src/store/server_config.ts:101-132 | the field accepts exactly a digits-only value whose number lies within the limits and which the availability check calls free |
| ServerConfig.PatternRuleGuardsChain | src/store/server_config.ts:103-123 | "12a" is refused by the field although the validator alone would ask about CID 12 and accept |
| ServerConfig.DigitsNeverNegative | src/store/server_config.ts:103-114 | input that passes the digits-only rule always parses and is never negative |
| ServerConfig.DefaultCidReachesAvailability | src/store/server_config.ts:115-122 | under the defaults, a digits-only CID reaches the availability request exactly when its value is 1 to 9999 |
| ServerConfig.ParseIntStopsAtLetter | src/store/server_config.ts:106 | `Number.parseInt("12a")` is 12 |
| ServerConfig.ParseIntReadsHex | src/store/server_config.ts:106 | `Number.parseInt("0x10")` is 16 |
| ServerConfig.ChainIsLenient | src/store/server_config.ts:103-122 | the chain alone accepts text the digits-only rule refuses ("12a", "0x10") |
| ServerConfig.LoadConfig | src/store/server_config.ts:34-40 | a rejected fetch throws. Otherwise the fetched value replaces the configuration, including a null, and an error is shown exactly when it is null |
| ServerConfig.Row | src/store/server_config.ts:134-136 | row `value + 1` is read when it exists; a missing row throws |
| ServerConfig.GetRatingShortName | src/store/server_config.ts:134-136 | answers the short name of row `rating + 1`, and throws when the configuration is null or the row is missing |
| ServerConfig.GetRatingLongName | src/store/server_config.ts:138-140 | answers the long name of row `rating + 1`, and throws when the configuration is null or the row is missing |
| ServerConfig.GetFacilityShortName | src/store/server_config.ts:142-144 | answers the short name of row `facility + 1`, and throws when the configuration is null or the row is missing |
| ServerConfig.GetFacilityLongName | src/store/server_config.ts:146-148 | answers the long name of row `facility + 1`, and throws when the configuration is null or the row is missing |
| ServerConfig.RatingRowIsEnumPosition | src/global.ts:106-120 | the `+ 1` turns each rating, from `Ban = -1` on, into its position in the rating enum |
| ServerConfig.RatingLookupInFullTable | src/store/server_config.ts:134-140 | with a table of one row per rating, every rating has a name, and `Ban` reads row 0 |
| ServerConfig.LookupsBeforeLoadThrow | src/store/server_config.ts:20-40 | with the initial empty tables, or after a load that gave null, the lookups throw |
| Activities.Matching | src/store/activity.ts:18-20 | the filtered list is never longer than the list |
| Activities.MatchingMembers | src/store/activity.ts:18-20 | an airport is offered exactly when it is in the list and its value starts with the upper-cased query |
| Activities.MatchingIsFilter | src/store/activity.ts:18-20 | the offered airports keep their order in the list |
| Activities.QuerySearch | src/store/activity.ts:14-22 | an empty query hands the callback the whole list and then the filtered list; any other query hands over only the filtered list |
| Activities.EmptyQueryOffersAll | src/store/activity.ts:15-21 | for the empty query the filtered list is the whole list, so the callback receives the whole list twice |
| Activities.StoredValueNotUpperCased | src/store/activity.ts:20 | only the query is upper-cased, so a lower-case stored code is never offered for a query with a letter |
| Activities.Prepared | src/store/activity.ts:27-31 | a prepared activity differs from the input only in its start time, which is the clock time of its active time, and its normalised image URL |
| Activities.TranslateActivityData | src/store/activity.ts:24-35 | every activity of the list is prepared in place, and the record maps each day to the prepared activities filed in list order |
| Activities.ByDayIsLastWriteWins | src/store/activity.ts:26-33 | the record has one key per day some activity falls on, and each day holds the last activity of the list on that day |
| Activities.GetActivityById | src/store/activity.ts:53-62 | a rejected request throws. Status 200 gives the activity, unchanged apart from its normalised image URL. Any other status gives null |
| Activities.FetchedMatchesGrouped | src/store/activity.ts:56-58 | a fetched activity's image URL follows the same rule as a grouped one |
| Activities.Guarded | src/store/activity.ts:89-96 | a logged-out store refuses without a request. A logged-in one sends the request and succeeds exactly on a 200 reply whose payload is true |
| Activities.PilotSign | src/store/activity.ts:89-96 | the guard with a POST to `/activities/{id}/pilots` |
| Activities.PilotUnsign | src/store/activity.ts:98-105 | the guard with a DELETE of `/activities/{id}/pilots` |
| Activities.ControllerSign | src/store/activity.ts:107-114 | the guard with a POST to `/activities/{id}/controllers/{facility}` |
| Activities.ControllerUnsign | src/store/activity.ts:116-123 | the guard with a DELETE of `/activities/{id}/controllers/{facility}` |
| Activities.SignRefusedDuringRefresh | src/store/activity.ts:89-93 | while a token refresh is in flight the store counts as logged out, so a sign-up is refused without a request |
| Countdown.New | src/utils/timer.ts:8-17 | a new timer holds the duration and is running, with its interval scheduled, exactly when it starts automatically |
| Countdown.Start | src/utils/timer.ts:19-22 | a running timer is unchanged; a stopped one becomes running with its interval scheduled; the seconds are kept |
| Countdown.Pause | src/utils/timer.ts:36-40 | a stopped timer is unchanged; a running one stops with its interval cleared; the seconds are kept |
| Countdown.Tick | src/utils/timer.ts:22-33 | without an interval nothing happens. Otherwise the seconds drop by one, the new value is reported first, and the interval stays scheduled exactly while seconds remain. Completion is signalled exactly on the firing that reaches zero or below |
| Countdown.FullCountdown | src/utils/timer.ts:19-34 | a countdown from r seconds reports r-1 down to 0, one per firing, then completes on the r-th firing. It ends with the interval cleared but still counted as running |
| Countdown.AfterCompletion | src/utils/timer.ts:20-31 | once complete, further firings do nothing and `start` is a no-op |
| Countdown.NonPositiveDurationCompletesAtOnce | src/utils/timer.ts:23-31 | a duration of zero or below completes on the first firing |
| Countdown.PauseThenStartResumes | src/utils/timer.ts:19-40 | pausing and starting resumes with the same seconds; pause and start are idempotent |
| Countdown.RestartAfterCompletion | src/utils/timer.ts:19-40 | after completion, a pause followed by a start schedules the interval again, and its next firing completes once more |
| SizeFormat.Divisor | src/utils/utils.ts:1-3 | each unit divides by 1024, 1024^2 or 1024^3 |
| SizeFormat.Thresholds | src/utils/utils.ts:1-16 | MB is 1 048 576 and GB is 1 073 741 824; the unit changes at exactly 1024, MB and GB, and 1023 prints as "1023B" |
| SizeFormat.SizeToString | src/utils/utils.ts:5-16 | below 1024 the text is exactly the decimal count then "B" (for a whole count above -10^21); above, the chosen unit's divisor is at most the size, and under it unless the unit is GB |
| SizeFormat.UnitIsLargestFitting | src/utils/utils.ts:9-15 | the chosen unit is the largest not above the size, so the shown quotient is at least 1, and below 1024 except in GB |
| SizeFormat.UnitIsMonotone | src/utils/utils.ts:9-15 | a larger size is never shown in a smaller unit |
| SizeFormat.ExactTextReadsBack | src/utils/utils.ts:6-8 | the exact text ends in "B", and what precedes it parses back to the size |

## Left out

- The HTTP layer is not modelled: the `src/api/*.ts` wrappers, the axios instance and its interceptors, and request headers. A reply is an input, either `Reply(status, body)` or `Rejected`. Request bodies are not modelled either, for example the sign-up form `data` that `pilotSign` posts (src/store/activity.ts:94).
- JWT decoding is not modelled. The expiry claim of a token is the abstract function `exp`, and the current time is a parameter `now`.
- `moment` date formatting is not modelled. The day key and the clock time of an activity are the abstract functions in `Formats`.
- `setTimeout`, `setInterval` and `clearTimeout` are not modelled as real scheduling. A timer is a handle that is live or spent, and its firing is an explicit event.
- The toasts shown by `showError` and the navigation by `router.push("/login")` are left out. They are user-interface side effects that do not change the state modelled here.
- The `desc` strings of the permission record are left out. No query reads them.
- `getPermissionsRecord` is left out. It returns the record itself, which is the model's `Permission` value.
- Pure request wrappers are left out, because each only sends one request and passes on what the reply holds, with no logic of its own:
  - on status 200 the payload, and otherwise null: `getActivitiesPage`, `getUserByUid`, `getUserPage`, `getControllerPage`, `updateUserInformation`;
  - on status 200 one field of the payload, and otherwise null: `getActivities` (its `items`) and `uploadActivityImage` (its `access_path`);
  - whether the status is 200: `createActivity`, `deleteActivity`, `saveActivity` and `sendEmailCode`.
- ServerConfig.EmailField: the form library's e-mail pattern is not part of this model. The `type: 'email'` rule is the abstract predicate `isEmail`.
- ServerConfig.UsernameField: length is the number of characters (code points) of the string, which is how the form library counts it for a min/max rule. The rules' `trigger: 'blur'` scheduling is not modelled: a field is validated as a whole, on one value.
- Session.CheckUsername, Session.CheckEmail, Session.CheckCid: the form validators call the identical `ApiUser` functions (src/api/user.ts:72-94), and the model takes the reply's payload as the boolean answer. Activities.Guarded and the four sign-up functions (Activities.PilotSign, Activities.PilotUnsign, Activities.ControllerSign, Activities.ControllerUnsign) likewise return `response.status == 200 && response.data`, which is the payload value itself and is only tested for truthiness by its callers; the model's payload there is a boolean too. When a reply's `data.data` is null, the response interceptor (src/api/request.ts:27-29) leaves the whole envelope in place, which is truthy, so the program counts the value as available. The model's reply always carries a boolean.
- Session.ParamValue reads a parameter's raw text. Percent-decoding and the reading of `+` as a space by the server are not modelled, so an address with `+` or `%` in it is promised nothing beyond its raw text.
- SizeFormat.SizeToString: above 1023 bytes the two-decimal quotient written by `toFixed(2)` is floating-point formatting and is not modelled. Only the unit is: the result records the unit, not the text. Sizes are whole byte counts; a fractional size such as 512.5, written "512.5B", is not modelled, and SizeFormat.ExactTextReadsBack is stated for whole counts only.
- JsCore.ParseInt: numbers are unbounded integers. The loss of precision of JavaScript numbers beyond 2^53 is not modelled.
- JsCore.NumberToString writes plain decimal digits. JavaScript writes an integer of magnitude 10^21 or more in exponent form ("1e+21"), which is not modelled; the CID text in Session.CheckCid and Session.CidQueryRoundTrip, and the byte count in SizeFormat.SizeToString, are promised only below that magnitude.
- Countdown.New: durations are whole seconds. A JavaScript `number` may be fractional (a duration of 2.5 reports 1.5, 0.5 and -0.5 and completes on the third firing); fractional durations are not modelled.
- JsCore.ToUpper upper-cases ASCII letters only, so only ASCII queries are modelled. `toUpperCase` on the user's query can also change its length, for example "ß" becomes "SS"; that is not modelled.
- Session.Login: dropping the old handle (`timer = null`) without clearing it leaves a pending refresh scheduled in the browser. The model forgets the dropped handle, so its later firing is not modelled. The same holds for Session.FlushFinish, which sets `timer = null` whatever the handle is (src/store/user.ts:98): a refresh settling after a login, or the start-up refresh of Session.InitUser while a timer is pending, drops a live handle.
- Session.InitUser runs each start-up branch to completion: its awaits are not split, so events that settle while a start-up request is in flight are not modelled. The timer-driven refresh is split into Session.FireTimer and Session.FlushFinish in Session.Run.
- Session.SetFlushTokenTimer: a `setTimeout` delay above 2^31 - 1 milliseconds (about 24.8 days) fires at once in the browser. The model keeps the computed delay unbounded, so a token that expires further ahead is not modelled as refreshed immediately.
- Session.DecodeResponse: the user's `permission` field is taken as a number. Its declared `BigInt` type is not modelled.
- ServerConfig.LoadConfig: the store never copies anything from the loaded configuration into the form limits, so the model keeps the default limits throughout. `getServerConfig` (src/api/server.ts:15-18) goes through the response interceptor (src/api/request.ts:27-29), which leaves the whole envelope in place when its `data` field is null; the program then stores that envelope, whose `ratings` and `facilities` are undefined, and its null branch is not reached. The model's null fetch stands for a null configuration as the store's code is written, not for a reply the interceptor produces.

=== FILE: activity.dfy ===
/**
 * The activity store's helpers: the airport autocomplete search, the
 * grouping of a list of activities by calendar day, the image-URL rule
 * of a fetched activity, and the log-in guards of the four sign-up
 * actions.
 */
module Activities {
  import opened JsCore
  import MediaUrl
  import Session

  // ---------------------------------------------------------------
  // Airport search

  /** An autocomplete entry: the airport's ICAO code in `value`. */
  datatype Airport = Airport(value: string)

  /** Whether an entry is offered for a query: its value, as stored,
      starts with the upper-cased query. */
  predicate Offered(a: Airport, query: string) {
    StartsWith(a.value, ToUpper(query))
  }

  /** The entries offered for a query, in list order. */
  function Matching(airports: seq<Airport>, query: string): (r: seq<Airport>)
    ensures |r| <= |airports|
    decreases |airports|
  {
    if airports == [] then []
    else
      var last := airports[|airports| - 1];
      Matching(airports[..|airports| - 1], query) + (if Offered(last, query) then [last] else [])
  }

  /** `querySearch`: the lists handed to the callback, in call order.  An
      empty query first hands over the whole list, then filters it. */
  method QuerySearch(airports: seq<Airport>, query: string) returns (calls: seq<seq<Airport>>)
    ensures query == "" ==> calls == [airports, Matching(airports, query)]
    ensures query != "" ==> calls == [Matching(airports, query)]
  {
    calls := [];
    if query == "" {
      calls := calls + [airports];
    }
    var upper := ToUpper(query);
    var results: seq<Airport> := [];
    for i := 0 to |airports|
      invariant results == Matching(airports[..i], query)
    {
      IndexOfZeroIsPrefix(airports[i].value, upper);
      if IndexOf(airports[i].value, upper) == 0 {
        results := results + [airports[i]];
      }
      assert airports[..i + 1][..i] == airports[..i];
    }
    assert airports[..|airports|] == airports;
    calls := calls + [results];
  }

  /** An entry is offered exactly when it is in the list and its value
      starts with the upper-cased query. */
  lemma {:induction false} MatchingMembers(airports: seq<Airport>, query: string, a: Airport)
    ensures a in Matching(airports, query) <==> a in airports && Offered(a, query)
    decreases |airports|
  {
    if airports != [] {
      var init := airports[..|airports| - 1];
      MatchingMembers(init, query, a);
      assert airports == init + [airports[|airports| - 1]];
    }
  }

  /** The offered entries keep their relative order: they are the list
      with some entries removed, and an offered entry is never dropped. */
  lemma {:induction false} MatchingIsFilter(airports: seq<Airport>, query: string)
    ensures Matching(airports, query) == FilterBy(airports, query)
    decreases |airports|
  {
    if airports != [] {
      var init := airports[..|airports| - 1];
      var last := airports[|airports| - 1];
      MatchingIsFilter(init, query);
      FilterByAppend(init, last, query);
      assert airports == init + [last];
    }
  }

  /** The same selection read from the front of the list. */
  function FilterBy(airports: seq<Airport>, query: string): seq<Airport>
    decreases |airports|
  {
    if airports == [] then []
    else (if Offered(airports[0], query) then [airports[0]] else []) + FilterBy(airports[1..], query)
  }

  lemma {:induction false} FilterByAppend(init: seq<Airport>, last: Airport, query: string)
    ensures FilterBy(init + [last], query) == FilterBy(init, query) + (if Offered(last, query) then [last] else [])
    decreases |init|
  {
    if init == [] {
      assert [last][1..] == [];
    } else {
      FilterByAppend(init[1..], last, query);
      assert (init + [last])[1..] == init[1..] + [last];
    }
  }

  lemma UpperIdempotent(s: string)
    ensures ToUpper(ToUpper(s)) == ToUpper(s)
  {
  }

  /** An empty query offers the whole list, so the callback receives the
      whole list twice. */
  lemma {:induction false} EmptyQueryOffersAll(airports: seq<Airport>)
    ensures Matching(airports, "") == airports
    decreases |airports|
  {
    if airports != [] {
      EmptyQueryOffersAll(airports[..|airports| - 1]);
      assert ToUpper("") == "";
    }
  }

  /** Only the query is upper-cased: a lower-case code stored in the list
      is never offered for a query with a letter, whatever its case. */
  lemma StoredValueNotUpperCased()
    ensures Matching([Airport("zbaa")], "zb") == []
    ensures Matching([Airport("ZBAA")], "zb") == [Airport("ZBAA")]
  {
    assert ToUpper("zb") == "ZB";
    assert "zbaa"[..2][0] != "ZB"[0];
    assert "ZBAA"[..2] == "ZB";
    assert [Airport("zbaa")][..0] == [];
    assert [Airport("ZBAA")][..0] == [];
  }

  // ---------------------------------------------------------------
  // Grouping activities by day

  datatype Activity = Activity(
    id: int,
    title: string,
    activeTime: string,   // the activity's date and time, as sent by the server
    startTime: string,    // filled in on the client: the time of day
    imageUrl: string)

  /** The date formatting the grouping relies on, left abstract: the
      `YYYY-MM-DD` day and the `HH:mm:ss` time of an activity's time. */
  datatype Formats = Formats(day: string -> string, clock: string -> string)

  /** The activity as `translateActivityData` leaves it: start time filled
      in, image URL normalised. */
  function Prepared(f: Formats, backendUrl: string, a: Activity): (b: Activity)
    ensures b.(startTime := a.startTime, imageUrl := a.imageUrl) == a
    ensures b.startTime == f.clock(a.activeTime)
    ensures b.imageUrl == MediaUrl.Normalise(backendUrl, a.imageUrl)
  {
    a.(startTime := f.clock(a.activeTime), imageUrl := MediaUrl.Normalise(backendUrl, a.imageUrl))
  }

  /** The record built by assigning each prepared activity to its day, in
      list order. */
  function ByDay(f: Formats, prepared: seq<Activity>): map<string, Activity>
    decreases |prepared|
  {
    if prepared == [] then map[]
    else
      var last := prepared[|prepared| - 1];
      ByDay(f, prepared[..|prepared| - 1])[f.day(last.activeTime) := last]
  }

  /** `translateActivityData`: the record by day, and the list as the
      caller sees it afterwards (each element is changed in place). */
  method TranslateActivityData(f: Formats, backendUrl: string, activities: seq<Activity>)
    returns (record: map<string, Activity>, updated: seq<Activity>)
    ensures |updated| == |activities|
    ensures forall i :: 0 <= i < |activities| ==> updated[i] == Prepared(f, backendUrl, activities[i])
    ensures record == ByDay(f, updated)
  {
    record := map[];
    updated := [];
    for i := 0 to |activities|
      invariant |updated| == i
      invariant forall j :: 0 <= j < i ==> updated[j] == Prepared(f, backendUrl, activities[j])
      invariant record == ByDay(f, updated)
    {
      var a := Prepared(f, backendUrl, activities[i]);
      ByDayAppend(f, updated, a);
      updated := updated + [a];
      record := record[f.day(a.activeTime) := a];
    }
  }

  /** Appending one activity files it under its day, over whatever was there. */
  lemma ByDayAppend(f: Formats, prepared: seq<Activity>, a: Activity)
    ensures ByDay(f, prepared + [a]) == ByDay(f, prepared)[f.day(a.activeTime) := a]
  {
    assert (prepared + [a])[..|prepared|] == prepared;
  }

  /** The day an activity falls on. */
  function DayOf(f: Formats, a: Activity): string {
    f.day(a.activeTime)
  }

  /** Some activity of the list falls on day `k`. */
  predicate HasDay(f: Formats, prepared: seq<Activity>, k: string) {
    exists j :: 0 <= j < |prepared| && DayOf(f, prepared[j]) == k
  }

  predicate LastOnDay(f: Formats, prepared: seq<Activity>, k: string, j: int) {
    && 0 <= j < |prepared|
    && DayOf(f, prepared[j]) == k
    && forall later :: j < later < |prepared| ==> DayOf(f, prepared[later]) != k
  }

  lemma HasDayOfAppend(f: Formats, prepared: seq<Activity>, k: string)
    requires prepared != []
    ensures HasDay(f, prepared, k) <==>
              HasDay(f, prepared[..|prepared| - 1], k) || DayOf(f, prepared[|prepared| - 1]) == k
  {
    var init := prepared[..|prepared| - 1];
    if HasDay(f, prepared, k) && DayOf(f, prepared[|prepared| - 1]) != k {
      var j :| 0 <= j < |prepared| && DayOf(f, prepared[j]) == k;
      assert init[j] == prepared[j];
    }
    if HasDay(f, init, k) {
      var j :| 0 <= j < |init| && DayOf(f, init[j]) == k;
      assert init[j] == prepared[j];
    }
  }

  lemma {:induction false} ByDayKeys(f: Formats, prepared: seq<Activity>, k: string)
    ensures k in ByDay(f, prepared) <==> HasDay(f, prepared, k)
    decreases |prepared|
  {
    if prepared != [] {
      ByDayKeys(f, prepared[..|prepared| - 1], k);
      HasDayOfAppend(f, prepared, k);
    }
  }

  lemma {:induction false} ByDayValue(f: Formats, prepared: seq<Activity>, k: string)
    requires k in ByDay(f, prepared)
    ensures exists j :: LastOnDay(f, prepared, k, j) && ByDay(f, prepared)[k] == prepared[j]
    decreases |prepared|
  {
    var n := |prepared| - 1;
    var init := prepared[..n];
    if k == DayOf(f, prepared[n]) {
      assert LastOnDay(f, prepared, k, n);
    } else {
      ByDayValue(f, init, k);
      var j :| LastOnDay(f, init, k, j) && ByDay(f, init)[k] == init[j];
      assert init[j] == prepared[j];
      assert LastOnDay(f, prepared, k, j);
    }
  }

  /** One entry per distinct day, and each day holds the LAST activity of
      the list that falls on it. */
  lemma ByDayIsLastWriteWins(f: Formats, prepared: seq<Activity>)
    ensures forall k :: k in ByDay(f, prepared) <==> HasDay(f, prepared, k)
    ensures forall k :: k in ByDay(f, prepared) ==>
              exists j :: LastOnDay(f, prepared, k, j) && ByDay(f, prepared)[k] == prepared[j]
  {
    forall k ensures k in ByDay(f, prepared) <==> HasDay(f, prepared, k) {
      ByDayKeys(f, prepared, k);
    }
    forall k | k in ByDay(f, prepared)
      ensures exists j :: LastOnDay(f, prepared, k, j) && ByDay(f, prepared)[k] == prepared[j]
    {
      ByDayValue(f, prepared, k);
    }
  }

  // ---------------------------------------------------------------
  // Fetching one activity

  /** `getActivityById`: a 200 reply yields the activity with its image
      URL normalised; any other resolved status yields null. */
  function GetActivityById(backendUrl: string, reply: Reply<Activity>): (r: Outcome<Option<Activity>>)
    ensures reply.Rejected? <==> r.Threw?
    ensures r.Returned? ==> (r.value.Some? <==> reply.status == 200)
    ensures r.Returned? && r.value.Some? ==>
              && r.value.value.imageUrl == MediaUrl.Normalise(backendUrl, reply.body.imageUrl)
              && r.value.value.(imageUrl := reply.body.imageUrl) == reply.body
  {
    match reply
    case Rejected => Threw
    case Reply(status, a) =>
      if status == 200 then Returned(Some(a.(imageUrl := MediaUrl.Normalise(backendUrl, a.imageUrl))))
      else Returned(None)
  }

  /** The image URL of a fetched activity follows the same rule as a
      grouped one. */
  lemma FetchedMatchesGrouped(f: Formats, backendUrl: string, a: Activity)
    ensures GetActivityById(backendUrl, Reply(200, a)).value.value.imageUrl
            == Prepared(f, backendUrl, a).imageUrl
  {
  }

  // ---------------------------------------------------------------
  // Sign-up actions

  datatype Verb = Post | Delete

  datatype Request = Request(verb: Verb, path: string)

  /** What a guarded action does: the request it sends, if any, and how it
      settles. */
  datatype Action = Action(sent: Option<Request>, outcome: Outcome<bool>)

  /** The shared shape of the four actions: refuse when logged out
      (showing an error, sending nothing); otherwise succeed exactly on a
      200 reply whose payload is true. */
  function Guarded(isLogin: bool, request: Request, reply: Reply<bool>): (r: Action)
    ensures !isLogin ==> r == Action(None, Returned(false))
    ensures isLogin ==> r.sent == Some(request)
    ensures isLogin ==> (r.outcome == Returned(true) <==> reply == Reply(200, true))
    ensures isLogin ==> (r.outcome == Threw <==> reply.Rejected?)
  {
    if !isLogin then Action(None, Returned(false))
    else
      match reply
      case Rejected => Action(Some(request), Threw)
      case Reply(status, ok) => Action(Some(request), Returned(status == 200 && ok))
  }

  function ActivityPath(activityId: int): string {
    "/activities/" + NumberToString(activityId)
  }

  function PilotSign(isLogin: bool, activityId: int, reply: Reply<bool>): (r: Action)
    ensures !isLogin ==> r == Action(None, Returned(false))
    ensures isLogin ==> r.sent == Some(Request(Post, ActivityPath(activityId) + "/pilots"))
    ensures isLogin ==> (r.outcome == Returned(true) <==> reply == Reply(200, true))
  {
    Guarded(isLogin, Request(Post, ActivityPath(activityId) + "/pilots"), reply)
  }

  function PilotUnsign(isLogin: bool, activityId: int, reply: Reply<bool>): (r: Action)
    ensures !isLogin ==> r == Action(None, Returned(false))
    ensures isLogin ==> r.sent == Some(Request(Delete, ActivityPath(activityId) + "/pilots"))
    ensures isLogin ==> (r.outcome == Returned(true) <==> reply == Reply(200, true))
  {
    Guarded(isLogin, Request(Delete, ActivityPath(activityId) + "/pilots"), reply)
  }

  function ControllerSign(isLogin: bool, activityId: int, facilityId: int, reply: Reply<bool>): (r: Action)
    ensures !isLogin ==> r == Action(None, Returned(false))
    ensures isLogin ==>
              r.sent == Some(Request(Post, ActivityPath(activityId) + "/controllers/" + NumberToString(facilityId)))
    ensures isLogin ==> (r.outcome == Returned(true) <==> reply == Reply(200, true))
  {
    Guarded(isLogin, Request(Post, ActivityPath(activityId) + "/controllers/" + NumberToString(facilityId)), reply)
  }

  function ControllerUnsign(isLogin: bool, activityId: int, facilityId: int, reply: Reply<bool>): (r: Action)
    ensures !isLogin ==> r == Action(None, Returned(false))
    ensures isLogin ==>
              r.sent == Some(Request(Delete, ActivityPath(activityId) + "/controllers/" + NumberToString(facilityId)))
    ensures isLogin ==> (r.outcome == Returned(true) <==> reply == Reply(200, true))
  {
    Guarded(isLogin, Request(Delete, ActivityPath(activityId) + "/controllers/" + NumberToString(facilityId)), reply)
  }

  /** While the session store refreshes its token it counts as logged out,
      so a sign-up attempted in that window is refused without a request. */
  lemma SignRefusedDuringRefresh(s: Session.State, activityId: int, facilityId: int, reply: Reply<bool>)
    ensures PilotSign(Session.FlushStart(s).isLogin, activityId, reply) == Action(None, Returned(false))
    ensures ControllerSign(Session.FlushStart(s).isLogin, activityId, facilityId, reply) == Action(None, Returned(false))
  {
  }
}

=== FILE: bits.dfy ===
/**
 * Facts about 32-bit patterns that the permission model rests on:
 * single-bit patterns, reading one bit, and the subset and overlap
 * tests on patterns.  Each fact is proved from small equalities so that
 * the solver never has to search a large bit-level case split.
 */
module Bits {

  /** The pattern with only bit `i` set. */
  function Bit(i: bv5): bv32 {
    1 << i
  }

  /** `p` and `q` have a bit in common. */
  predicate Meets(p: bv32, q: bv32) {
    (p & q) != 0
  }

  /** Bit `i` of a 32-bit pattern is set. */
  predicate BitSet(mask: bv32, i: bv5) {
    Meets(mask, Bit(i))
  }

  /** Every bit of `p` is also a bit of `q`. */
  predicate SubMask(p: bv32, q: bv32) {
    (p & q) == p
  }

  lemma ShiftsMeet(b: bv5, c: bv5)
    ensures ((1 as bv32) << b) & ((1 as bv32) << c) != 0 <==> b == c
  {
  }

  lemma ShiftInside(x: bv32, b: bv5)
    ensures (((1 as bv32) << b) & x) == (1 as bv32) << b <==> (x & ((1 as bv32) << b)) != 0
  {
  }

  /** The single-bit pattern `Bit(i)` is inside `mask` exactly when bit
      `i` of `mask` is set. */
  lemma MaskTest(mask: bv32, i: bv5)
    ensures SubMask(Bit(i), mask) <==> BitSet(mask, i)
  {
    ShiftInside(mask, i);
  }

  /** Bit `j` of `Bit(i)` is set exactly when `j == i`. */
  lemma BitHasOneBit(i: bv5, j: bv5)
    ensures BitSet(Bit(i), j) <==> j == i
  {
    ShiftsMeet(i, j);
  }

  lemma AndZero(x: bv32)
    ensures (0 & x) == 0 && (x & 0) == 0
  {
  }

  lemma AndOnes(x: bv32)
    ensures (0xFFFF_FFFF & x) == x
  {
  }

  lemma BitOfZero(i: bv5)
    ensures !BitSet(0, i)
  {
    AndZero(Bit(i));
  }

  lemma ShiftNonZero(b: bv5)
    ensures ((1 as bv32) << b) != 0
  {
  }

  lemma BitOfOnes(i: bv5)
    ensures BitSet(0xFFFF_FFFF, i)
  {
    AndOnes(Bit(i));
    ShiftNonZero(i);
  }

  lemma AndAssoc(x: bv32, y: bv32, z: bv32)
    ensures ((x & y) & z) == (x & (y & z))
  {
  }

  lemma AndComm(x: bv32, y: bv32)
    ensures (x & y) == (y & x)
  {
  }

  lemma AndOrDistrib(m: bv32, a: bv32, b: bv32)
    ensures (m & (a | b)) == ((m & a) | (m & b))
  {
  }

  lemma Absorb(a: bv32, b: bv32)
    ensures (a & (a | b)) == a && (b & (a | b)) == b
  {
  }

  lemma OrZero(x: bv32, y: bv32)
    ensures (x | y) == 0 <==> x == 0 && y == 0
  {
  }

  /** A pattern inside `q` keeps all its bits inside any pattern around `q`. */
  lemma SubMaskKeepsBit(p: bv32, q: bv32, i: bv5)
    requires SubMask(p, q) && BitSet(p, i)
    ensures BitSet(q, i)
  {
    var bit := Bit(i);
    calc {
      p & bit;
      (p & q) & bit;
      { AndAssoc(p, q, bit); }
      p & (q & bit);
    }
    AndZero(p);
  }

  lemma OrSubMaskIntro(a: bv32, b: bv32, m: bv32)
    requires SubMask(a, m) && SubMask(b, m)
    ensures SubMask(a | b, m)
  {
    calc {
      (a | b) & m;
      { AndComm(a | b, m); }
      m & (a | b);
      { AndOrDistrib(m, a, b); }
      (m & a) | (m & b);
      { AndComm(m, a); AndComm(m, b); }
      (a & m) | (b & m);
      a | b;
    }
  }

  lemma OrSubMaskElim(a: bv32, b: bv32, m: bv32)
    requires SubMask(a | b, m)
    ensures SubMask(a, m)
  {
    calc {
      a & m;
      { Absorb(a, b); }
      (a & (a | b)) & m;
      { AndAssoc(a, a | b, m); }
      a & ((a | b) & m);
      a & (a | b);
      { Absorb(a, b); }
      a;
    }
  }

  /** `a | b` is inside `m` exactly when both `a` and `b` are. */
  lemma OrSubMask(a: bv32, b: bv32, m: bv32)
    ensures SubMask(a | b, m) <==> SubMask(a, m) && SubMask(b, m)
  {
    if SubMask(a | b, m) {
      OrSubMaskElim(a, b, m);
      OrComm(a, b);
      OrSubMaskElim(b, a, m);
    }
    if SubMask(a, m) && SubMask(b, m) {
      OrSubMaskIntro(a, b, m);
    }
  }

  lemma OrComm(a: bv32, b: bv32)
    ensures (a | b) == (b | a)
  {
  }

  /** `m` meets `a | b` exactly when it meets `a` or meets `b`. */
  lemma OrMeets(a: bv32, b: bv32, m: bv32)
    ensures Meets(m, a | b) <==> Meets(m, a) || Meets(m, b)
  {
    AndOrDistrib(m, a, b);
    OrZero(m & a, m & b);
  }

  lemma ZeroMeetsNothing(m: bv32)
    ensures !Meets(m, 0) && SubMask(0, m)
  {
    AndZero(m);
  }

  /** A single bit is inside `m` exactly when it meets `m`. */
  lemma SingleBitMeets(m: bv32, i: bv5)
    ensures SubMask(Bit(i), m) <==> Meets(m, Bit(i))
  {
    ShiftInside(m, i);
  }

  /** Bitwise-or of a list of patterns. */
  function Union(vs: seq<bv32>): bv32 {
    if |vs| == 0 then 0 else Union(vs[..|vs| - 1]) | vs[|vs| - 1]
  }

  /** A non-empty union is the union of all but the last member, or'd
      with the last member. */
  lemma UnionLast(vs: seq<bv32>)
    requires |vs| > 0
    ensures Union(vs) == Union(vs[..|vs| - 1]) | vs[|vs| - 1]
  {
  }

  /** If a union lies inside `m`, so does the union of all but its last
      member. */
  lemma UnionSubMaskDropLast(vs: seq<bv32>, m: bv32)
    requires |vs| > 0 && SubMask(Union(vs), m)
    ensures SubMask(Union(vs[..|vs| - 1]), m)
  {
    UnionLast(vs);
    OrSubMaskElim(Union(vs[..|vs| - 1]), vs[|vs| - 1], m);
  }

  /** If a union lies inside `m`, so does its last member. */
  lemma UnionSubMaskLastMember(vs: seq<bv32>, m: bv32)
    requires |vs| > 0 && SubMask(Union(vs), m)
    ensures SubMask(vs[|vs| - 1], m)
  {
    var init, last := vs[..|vs| - 1], vs[|vs| - 1];
    UnionLast(vs);
    OrComm(Union(init), last);
    OrSubMaskElim(last, Union(init), m);
  }

  /** Adding a member inside `m` to a union of a prefix inside `m` keeps
      the longer prefix's union inside `m`. */
  lemma UnionPrefixJoin(vs: seq<bv32>, m: bv32, k: nat)
    requires 0 < k <= |vs| && SubMask(Union(vs[..k - 1]), m) && SubMask(vs[k - 1], m)
    ensures SubMask(Union(vs[..k]), m)
  {
    assert vs[..k][..k - 1] == vs[..k - 1];
    UnionLast(vs[..k]);
    OrSubMaskIntro(Union(vs[..k - 1]), vs[k - 1], m);
  }

  /** Every member of a list lies inside the enclosing mask of its union. */
  lemma {:induction false} UnionSubMaskElim(vs: seq<bv32>, m: bv32, i: nat)
    requires SubMask(Union(vs), m) && i < |vs|
    ensures SubMask(vs[i], m)
    decreases |vs|
  {
    UnionSubMaskDropLast(vs, m);
    UnionSubMaskLastMember(vs, m);
    var init := vs[..|vs| - 1];
    if i < |init| {
      UnionSubMaskElim(init, m, i);
      assert init[i] == vs[i];
    }
  }

  /** If every member lies inside `m`, so does the union of every prefix. */
  lemma {:induction false} UnionPrefixInside(vs: seq<bv32>, m: bv32, k: nat)
    requires k <= |vs|
    requires forall i :: 0 <= i < |vs| ==> SubMask(vs[i], m)
    ensures SubMask(Union(vs[..k]), m)
    decreases k
  {
    if k == 0 {
      ZeroMeetsNothing(m);
    } else {
      UnionPrefixInside(vs, m, k - 1);
      UnionPrefixJoin(vs, m, k);
    }
  }

  /** A list whose members all lie inside `m` has its union inside `m`. */
  lemma UnionSubMaskIntro(vs: seq<bv32>, m: bv32)
    requires forall i :: 0 <= i < |vs| ==> SubMask(vs[i], m)
    ensures SubMask(Union(vs), m)
  {
    UnionPrefixInside(vs, m, |vs|);
    assert vs[..|vs|] == vs;
  }

  /** The union of a list is inside `m` exactly when every member is. */
  lemma UnionSubMask(vs: seq<bv32>, m: bv32)
    ensures SubMask(Union(vs), m) <==> forall i :: 0 <= i < |vs| ==> SubMask(vs[i], m)
  {
    if SubMask(Union(vs), m) {
      forall i | 0 <= i < |vs| ensures SubMask(vs[i], m) {
        UnionSubMaskElim(vs, m, i);
      }
    }
    if forall i :: 0 <= i < |vs| ==> SubMask(vs[i], m) {
      UnionSubMaskIntro(vs, m);
    }
  }

  /** `m` meets the union of a list exactly when it meets some member. */
  lemma {:induction false} UnionMeets(vs: seq<bv32>, m: bv32)
    ensures Meets(m, Union(vs)) <==> exists i :: 0 <= i < |vs| && Meets(m, vs[i])
    decreases |vs|
  {
    if |vs| == 0 {
      ZeroMeetsNothing(m);
    } else {
      var init := vs[..|vs| - 1];
      UnionMeets(init, m);
      OrMeets(Union(init), vs[|vs| - 1], m);
      assert forall i :: 0 <= i < |init| ==> init[i] == vs[i];
      assert vs == init + [vs[|vs| - 1]];
    }
  }
}

=== FILE: countdown.dfy ===
/**
 * The countdown `Timer` utility: a number of seconds that an interval
 * decrements once a second, reporting each new value and, once it
 * reaches zero or below, completing.  Each firing of the interval is an
 * explicit `Tick`.
 */
module Countdown {

  /** `isRunning` is the utility's own flag; `ticking` says whether its
      interval is scheduled (set by `start`, cleared by `pause` and on
      completion). */
  datatype Timer = Timer(
    isRunning: bool,
    remaining: int,
    ticking: bool,
    hasOnTick: bool,
    hasOnComplete: bool)

  /** A callback invocation. */
  datatype Signal = OnTick(remainingSeconds: int) | OnComplete

  /** An interval is only ever scheduled while the timer counts as running. */
  predicate Valid(t: Timer) {
    t.ticking ==> t.isRunning
  }

  /** `start`: a no-op while running; otherwise mark running and schedule
      the interval. */
  function Start(t: Timer): (u: Timer)
    ensures t.isRunning ==> u == t
    ensures !t.isRunning ==> u.isRunning && u.ticking
    ensures u.remaining == t.remaining
    ensures Valid(t) ==> Valid(u)
  {
    if t.isRunning then t else t.(isRunning := true, ticking := true)
  }

  /** `pause`: a no-op while not running; otherwise clear the interval and
      mark not running.  The remaining seconds are kept. */
  function Pause(t: Timer): (u: Timer)
    ensures !t.isRunning ==> u == t
    ensures t.isRunning ==> !u.isRunning && !u.ticking
    ensures u.remaining == t.remaining
    ensures Valid(t) ==> Valid(u)
  {
    if !t.isRunning then t else t.(isRunning := false, ticking := false)
  }

  /** The constructor: not running, `duration` seconds left, then `start`
      when asked to start automatically. */
  function New(duration: int, hasOnTick: bool, hasOnComplete: bool, autoStart: bool): (t: Timer)
    ensures t.remaining == duration
    ensures t.isRunning == autoStart && t.ticking == autoStart
    ensures Valid(t)
  {
    var t0 := Timer(false, duration, false, hasOnTick, hasOnComplete);
    if autoStart then Start(t0) else t0
  }

  datatype TickResult = TickResult(timer: Timer, signals: seq<Signal>)

  /** One firing of the interval: decrement, report the new value, and at
      zero or below clear the interval and complete.  Without a scheduled
      interval nothing happens. */
  function Tick(t: Timer): (r: TickResult)
    ensures !t.ticking ==> r == TickResult(t, [])
    ensures t.ticking ==> r.timer.remaining == t.remaining - 1
    ensures t.ticking ==> (r.timer.ticking <==> r.timer.remaining > 0)
    ensures t.ticking ==> r.timer.isRunning == t.isRunning
    ensures t.ticking && t.hasOnTick ==> |r.signals| >= 1 && r.signals[0] == OnTick(t.remaining - 1)
    ensures OnComplete in r.signals <==> t.ticking && t.hasOnComplete && t.remaining <= 1
    ensures Valid(t) ==> Valid(r.timer)
  {
    if !t.ticking then TickResult(t, [])
    else
      var left := t.remaining - 1;
      var reported := if t.hasOnTick then [OnTick(left)] else [];
      if left <= 0 then
        TickResult(t.(remaining := left, ticking := false),
                   reported + (if t.hasOnComplete then [OnComplete] else []))
      else TickResult(t.(remaining := left), reported)
  }

  /** `n` firings in a row and every callback they make. */
  function Ticks(t: Timer, n: nat): TickResult
    decreases n
  {
    if n == 0 then TickResult(t, [])
    else
      var first := Tick(t);
      var rest := Ticks(first.timer, n - 1);
      TickResult(rest.timer, first.signals + rest.signals)
  }

  /** The reports of a full countdown from `r`: r-1, r-2, ..., 0. */
  function CountingDown(r: nat, hasOnTick: bool): seq<Signal> {
    if hasOnTick then seq(r, i requires 0 <= i < r => OnTick(r - 1 - i)) else []
  }

  function Completion(hasOnComplete: bool): seq<Signal> {
    if hasOnComplete then [OnComplete] else []
  }

  /** A running countdown from `r` seconds reports every value from r-1
      down to 0, one per firing, completes on the r-th firing, and ends
      with its interval cleared but still counted as running. */
  lemma {:induction false} FullCountdown(t: Timer, r: nat)
    requires t.ticking && t.remaining == r && r >= 1
    ensures Ticks(t, r) ==
              TickResult(t.(remaining := 0, ticking := false),
                         CountingDown(r, t.hasOnTick) + Completion(t.hasOnComplete))
    decreases r
  {
    var first := Tick(t);
    if r == 1 {
      assert CountingDown(1, t.hasOnTick) == (if t.hasOnTick then [OnTick(0)] else []);
    } else {
      FullCountdown(first.timer, r - 1);
      if t.hasOnTick {
        assert CountingDown(r, true) == [OnTick(r - 1)] + CountingDown(r - 1, true);
      }
    }
  }

  /** Once complete, further firings do nothing and `start` is a no-op. */
  lemma AfterCompletion(t: Timer, r: nat, more: nat)
    requires Valid(t) && t.ticking && t.remaining == r && r >= 1
    ensures var done := Ticks(t, r).timer;
      && Ticks(done, more) == TickResult(done, [])
      && Start(done) == done
  {
    FullCountdown(t, r);
    var done := Ticks(t, r).timer;
    SilentWithoutInterval(done, more);
  }

  lemma {:induction false} SilentWithoutInterval(t: Timer, n: nat)
    requires !t.ticking
    ensures Ticks(t, n) == TickResult(t, [])
    decreases n
  {
    if n > 0 {
      SilentWithoutInterval(t, n - 1);
    }
  }

  /** A duration of zero or below completes on the very first firing. */
  lemma NonPositiveDurationCompletesAtOnce(duration: int, hasOnTick: bool, hasOnComplete: bool)
    requires duration <= 0
    ensures var r := Tick(New(duration, hasOnTick, hasOnComplete, true));
      && !r.timer.ticking && r.timer.remaining == duration - 1
      && r.signals == (if hasOnTick then [OnTick(duration - 1)] else []) + Completion(hasOnComplete)
  {
  }

  /** Pausing and starting again resumes from the same number of seconds. */
  lemma PauseThenStartResumes(t: Timer)
    requires t.isRunning
    ensures Start(Pause(t)) == t.(ticking := true)
    ensures Pause(Pause(t)) == Pause(t)
    ensures Start(Start(t)) == Start(t)
  {
  }

  /** After completion a pause followed by a start schedules the interval
      again, and its next firing completes once more. */
  lemma RestartAfterCompletion(t: Timer, r: nat)
    requires t.ticking && t.remaining == r && r >= 1 && t.hasOnComplete
    ensures var again := Start(Pause(Ticks(t, r).timer));
      again.ticking && OnComplete in Tick(again).signals
  {
    FullCountdown(t, r);
  }
}

=== FILE: js_core.dfy ===
/**
 * The few pieces of JavaScript runtime behaviour the front end's core
 * relies on, stated over Dafny's unbounded integers and `seq<char>`
 * strings: optional values, the settled state of an HTTP call, the
 * 32-bit view that bitwise operators take of a number, the decimal
 * text of an integer, `Number.parseInt` without a radix, and the
 * `startsWith` / `indexOf` / `toUpperCase` string methods.
 */
module JsCore {

  datatype Option<+T> = None | Some(value: T)

  /** How an awaited HTTP call settles: with a status and a payload, or
      rejected (the response interceptor rejects every non-2xx reply and
      every transport error). */
  datatype Reply<+T> = Reply(status: int, body: T) | Rejected

  /** How an async store function settles: it returns a value, or the
      rejection of an awaited call propagates out of it. */
  datatype Outcome<+T> = Returned(value: T) | Threw

  const TwoTo32: int := 0x1_0000_0000

  /** The bit pattern ToInt32 (equally ToUint32) gives an integral
      number: its value modulo 2^32. */
  function ToInt32Bits(x: int): bv32
  {
    var v := x % TwoTo32;
    assert 0 <= v < TwoTo32;
    v as bv32
  }

  /** `-1` is all ones in the int32 view. */
  lemma ToInt32BitsOfMinusOne()
    ensures ToInt32Bits(-1) == 0xFFFF_FFFF
  {
    assert (-1) % TwoTo32 == 0xFFFF_FFFF;
  }

  // ---------------------------------------------------------------
  // Strings

  predicate StartsWith(s: string, prefix: string) {
    |prefix| <= |s| && s[..|prefix|] == prefix
  }

  predicate OccursAt(s: string, t: string, k: int) {
    0 <= k && k + |t| <= |s| && s[k..k + |t|] == t
  }

  /** `s.indexOf(t)`: the first position at which `t` occurs in `s`,
      or -1 when it does not occur. */
  function IndexOf(s: string, t: string): (r: int)
    ensures -1 <= r <= |s|
    ensures r >= 0 ==> OccursAt(s, t, r)
    ensures r >= 0 ==> forall k :: 0 <= k < r ==> !OccursAt(s, t, k)
    ensures r == -1 ==> forall k :: !OccursAt(s, t, k)
    decreases |s|
  {
    if |t| > |s| then -1
    else if s[..|t|] == t then 0
    else
      var r := IndexOf(s[1..], t);
      assert forall k :: 1 <= k ==> (OccursAt(s, t, k) <==> OccursAt(s[1..], t, k - 1)) by {
        forall k | 1 <= k
          ensures OccursAt(s, t, k) <==> OccursAt(s[1..], t, k - 1)
        {
          if k + |t| <= |s| {
            assert s[1..][k - 1..k - 1 + |t|] == s[k..k + |t|];
          }
        }
      }
      assert !OccursAt(s, t, 0);
      if r == -1 then -1 else r + 1
  }

  /** `s.indexOf(t) === 0` is exactly "s starts with t". */
  lemma IndexOfZeroIsPrefix(s: string, t: string)
    ensures IndexOf(s, t) == 0 <==> StartsWith(s, t)
  {
  }

  function UpperChar(c: char): char {
    if 'a' <= c <= 'z' then (c as int - 32) as char else c
  }

  /** `toUpperCase` on the ASCII letters; every other character is kept. */
  function ToUpper(s: string): (r: string)
    ensures |r| == |s|
    ensures forall i :: 0 <= i < |s| ==> r[i] == UpperChar(s[i])
  {
    seq(|s|, i requires 0 <= i < |s| => UpperChar(s[i]))
  }

  // ---------------------------------------------------------------
  // Integer <-> decimal text

  predicate IsDecimalDigit(c: char) {
    '0' <= c <= '9'
  }

  predicate AllDecimalDigits(s: string) {
    forall i :: 0 <= i < |s| ==> IsDecimalDigit(s[i])
  }

  function DigitChar(d: nat): char
    requires d < 10
  {
    ('0' as int + d) as char
  }

  /** Decimal digits of a natural number, most significant first. */
  function Digits(n: nat): (s: string)
    ensures |s| >= 1
    ensures AllDecimalDigits(s)
    ensures |s| > 1 ==> s[0] != '0'
    decreases n
  {
    if n < 10 then [DigitChar(n)] else Digits(n / 10) + [DigitChar(n % 10)]
  }

  /** The text `${n}` produces for an integral number of magnitude below
      10^21 (from there on JavaScript switches to exponent form). */
  function NumberToString(n: int): (s: string)
    ensures |s| >= 1
  {
    if n < 0 then "-" + Digits(-n) else Digits(n)
  }

  /** Value of a digit character in base 10 or 16, if it is one. */
  function DigitValue(c: char, radix: nat): Option<nat>
    requires radix == 10 || radix == 16
  {
    if '0' <= c <= '9' then Some(c as int - '0' as int)
    else if radix == 16 && 'a' <= c <= 'f' then Some(c as int - 'a' as int + 10)
    else if radix == 16 && 'A' <= c <= 'F' then Some(c as int - 'A' as int + 10)
    else None
  }

  predicate AllDigits(s: string, radix: nat)
    requires radix == 10 || radix == 16
  {
    forall i :: 0 <= i < |s| ==> DigitValue(s[i], radix).Some?
  }

  /** Value of a run of digits, most significant first. */
  function DigitsValue(s: string, radix: nat): nat
    requires radix == 10 || radix == 16
    requires AllDigits(s, radix)
  {
    if |s| == 0 then 0
    else DigitsValue(s[..|s| - 1], radix) * radix + DigitValue(s[|s| - 1], radix).value
  }

  /** Length of the longest prefix of `s` made of digits. */
  function LeadingDigits(s: string, radix: nat): (k: nat)
    requires radix == 10 || radix == 16
    ensures k <= |s|
    ensures AllDigits(s[..k], radix)
    ensures k < |s| ==> DigitValue(s[k], radix).None?
  {
    if |s| == 0 || DigitValue(s[0], radix).None? then 0
    else
      var k := 1 + LeadingDigits(s[1..], radix);
      assert s[..k] == [s[0]] + s[1..][..k - 1];
      k
  }

  /** The characters `parseInt` skips before the number: the ECMAScript
      white space (including every space separator) and line terminators. */
  predicate IsWhiteSpace(c: char) {
    var u := c as int;
    || u == 0x09 || u == 0x0A || u == 0x0B || u == 0x0C || u == 0x0D
    || u == 0x20 || u == 0xA0 || u == 0x1680 || (0x2000 <= u <= 0x200A)
    || u == 0x2028 || u == 0x2029 || u == 0x202F || u == 0x205F
    || u == 0x3000 || u == 0xFEFF
  }

  function TrimStart(s: string): (t: string)
    ensures |t| <= |s| && t == s[|s| - |t|..]
    ensures |t| > 0 ==> !IsWhiteSpace(t[0])
  {
    if |s| > 0 && IsWhiteSpace(s[0]) then TrimStart(s[1..]) else s
  }

  /** `Number.parseInt(s)` with no radix: skip leading white space, take
      an optional sign, then a "0x"/"0X" prefix selects base 16; the
      longest run of digits that follows is the value, and no digits at
      all is NaN (`None`). */
  function ParseInt(s: string): Option<int>
  {
    var t := TrimStart(s);
    var negative := |t| > 0 && t[0] == '-';
    var u := if |t| > 0 && (t[0] == '-' || t[0] == '+') then t[1..] else t;
    var hex := |u| >= 2 && u[0] == '0' && (u[1] == 'x' || u[1] == 'X');
    var radix := if hex then 16 else 10;
    var w := if hex then u[2..] else u;
    var k := LeadingDigits(w, radix);
    if k == 0 then None
    else
      var magnitude: int := DigitsValue(w[..k], radix);
      Some(if negative then -magnitude else magnitude)
  }

  lemma {:induction false} DecimalDigitsAreDigits(s: string)
    requires AllDecimalDigits(s)
    ensures AllDigits(s, 10)
  {
  }

  lemma {:induction false} LeadingDigitsOfDigits(s: string)
    requires AllDecimalDigits(s)
    ensures LeadingDigits(s, 10) == |s|
    decreases |s|
  {
    if |s| > 0 {
      LeadingDigitsOfDigits(s[1..]);
    }
  }

  lemma {:induction false} DigitsValueOfDigits(n: nat)
    ensures AllDigits(Digits(n), 10)
    ensures DigitsValue(Digits(n), 10) == n
    decreases n
  {
    var s := Digits(n);
    if n >= 10 {
      DigitsValueOfDigits(n / 10);
      assert s[..|s| - 1] == Digits(n / 10);
    }
  }

  /** A non-empty run of decimal digits parses to its own value, which is
      never negative. */
  lemma {:induction false} ParseIntOfDigits(s: string)
    requires |s| > 0 && AllDecimalDigits(s)
    ensures AllDigits(s, 10)
    ensures ParseInt(s) == Some(DigitsValue(s, 10))
    ensures ParseInt(s).value >= 0
  {
    assert !IsWhiteSpace(s[0]);
    assert TrimStart(s) == s;
    LeadingDigitsOfDigits(s);
    assert s[..|s|] == s;
  }

  lemma {:induction false} ParseIntOfNegative(n: int)
    requires n < 0
    ensures ParseInt(NumberToString(n)) == Some(n)
  {
    var d := Digits(-n);
    var s := "-" + d;
    assert NumberToString(n) == s;
    DigitsValueOfDigits(-n);
    LeadingDigitsOfDigits(d);
    assert d[..|d|] == d;
    assert s[0] == '-' && !IsWhiteSpace(s[0]);
    assert TrimStart(s) == s;
    assert s[1..] == d;
  }

  lemma {:induction false} ParseIntOfNonNegative(n: int)
    requires n >= 0
    ensures ParseInt(NumberToString(n)) == Some(n)
  {
    assert NumberToString(n) == Digits(n);
    DigitsValueOfDigits(n);
    ParseIntOfDigits(Digits(n));
  }

  /** Round trip: `parseInt(String(n)) == n` for every integer `n`. */
  lemma ParseIntOfNumberToString(n: int)
    ensures ParseInt(NumberToString(n)) == Some(n)
  {
    if n < 0 {
      ParseIntOfNegative(n);
    } else {
      ParseIntOfNonNegative(n);
    }
  }
}

=== FILE: media_url.dfy ===
/**
 * The rule the stores apply to avatar and activity image URLs received
 * from the server: an absolute ("http...") or empty URL is kept, any
 * other URL is taken as a path on the backend and prefixed with the
 * backend URL and a slash.
 */
module MediaUrl {
  import opened JsCore

  const HttpPrefix: string := "http"

  /** Whether the rule leaves `url` as it is. */
  predicate IsKept(url: string) {
    StartsWith(url, HttpPrefix) || url == ""
  }

  function Normalise(backendUrl: string, url: string): (r: string)
    ensures IsKept(url) ==> r == url
    ensures !IsKept(url) ==> r == backendUrl + "/" + url
  {
    if !StartsWith(url, HttpPrefix) && url != "" then backendUrl + "/" + url else url
  }

  /** The received URL always survives as the tail of the result, and
      the result is empty only when the URL was. */
  lemma UrlIsSuffix(backendUrl: string, url: string)
    ensures var r := Normalise(backendUrl, url);
      |url| <= |r| && r[|r| - |url|..] == url && (r == "" <==> url == "")
  {
    var r := Normalise(backendUrl, url);
    if !IsKept(url) {
      assert r[|r| - |url|..] == url;
    }
  }

  /** A prefixed URL starts with "http" exactly when the backend URL does
      (the inserted slash cannot complete an "http" prefix). */
  lemma PrefixedStartsWithHttp(backendUrl: string, url: string)
    ensures StartsWith(backendUrl + "/" + url, HttpPrefix) <==> StartsWith(backendUrl, HttpPrefix)
  {
    var r := backendUrl + "/" + url;
    if |backendUrl| >= 4 {
      assert r[..4] == backendUrl[..4];
    } else {
      assert r[|backendUrl|] == '/';
      assert HttpPrefix[|backendUrl|] != '/';
    }
  }

  /** Normalising twice is normalising once exactly when the backend URL
      is absolute; with a relative backend URL every stored path gains a
      second prefix. */
  lemma NormaliseIdempotent(backendUrl: string, url: string)
    requires !IsKept(url)
    ensures Normalise(backendUrl, Normalise(backendUrl, url)) == Normalise(backendUrl, url)
            <==> StartsWith(backendUrl, HttpPrefix)
  {
    PrefixedStartsWithHttp(backendUrl, url);
    var r := Normalise(backendUrl, url);
    if !StartsWith(backendUrl, HttpPrefix) {
      assert |Normalise(backendUrl, r)| > |r|;
    }
  }
}

=== FILE: permissions.dfy ===
/**
 * The bitmask permission model: 32 single-bit permission nodes, the
 * name-to-node table, and the `Permission` record that decodes a
 * user's permission number into one flag per node.
 */
module Permissions {
  import opened JsCore
  import opened Bits

  datatype PermissionNode =
    | AdminEntry
    | UserShowList
    | UserGetProfile
    | UserSetPassword
    | UserEditBaseInfo
    | UserEditPermission
    | ControllerShowList
    | ControllerTier2Rating
    | ControllerEditRating
    | ControllerShowRecord
    | ControllerCreateRecord
    | ControllerDeleteRecord
    | ControllerChangeUnderMonitor
    | ControllerChangeSolo
    | ControllerChangeGuest
    | ActivityPublish
    | ActivityShowList
    | ActivityEdit
    | ActivityEditState
    | ActivityEditPilotState
    | ActivityDelete
    | AuditLogShow
    | TicketShowList
    | TicketReply
    | TicketRemove
    | FlightPlanShowList
    | FlightPlanChangeLock
    | FlightPlanDelete
    | ClientManagerEntry
    | ClientSendMessage
    | ClientKill
    | ClientSendBroadcastMessage

  /** The node declared `i`-th, counting from 0. */
  function NodeAt(i: nat): PermissionNode
    requires i < 32
  {
    if i == 0 then AdminEntry
    else if i == 1 then UserShowList
    else if i == 2 then UserGetProfile
    else if i == 3 then UserSetPassword
    else if i == 4 then UserEditBaseInfo
    else if i == 5 then UserEditPermission
    else if i == 6 then ControllerShowList
    else if i == 7 then ControllerTier2Rating
    else if i == 8 then ControllerEditRating
    else if i == 9 then ControllerShowRecord
    else if i == 10 then ControllerCreateRecord
    else if i == 11 then ControllerDeleteRecord
    else if i == 12 then ControllerChangeUnderMonitor
    else if i == 13 then ControllerChangeSolo
    else if i == 14 then ControllerChangeGuest
    else if i == 15 then ActivityPublish
    else if i == 16 then ActivityShowList
    else if i == 17 then ActivityEdit
    else if i == 18 then ActivityEditState
    else if i == 19 then ActivityEditPilotState
    else if i == 20 then ActivityDelete
    else if i == 21 then AuditLogShow
    else if i == 22 then TicketShowList
    else if i == 23 then TicketReply
    else if i == 24 then TicketRemove
    else if i == 25 then FlightPlanShowList
    else if i == 26 then FlightPlanChangeLock
    else if i == 27 then FlightPlanDelete
    else if i == 28 then ClientManagerEntry
    else if i == 29 then ClientSendMessage
    else if i == 30 then ClientKill
    else ClientSendBroadcastMessage
  }

  /** Every node. */
  function AllNodes(): set<PermissionNode> {
    set i | 0 <= i < 32 :: NodeAt(i)
  }

  /** The enum value of each node, as a 32-bit pattern (`1 << 31` is the
      sign bit of the int32 that JavaScript's `&` works on). */
  function Value(n: PermissionNode): bv32 {
    match n
    case AdminEntry => 1 << 0
    case UserShowList => 1 << 1
    case UserGetProfile => 1 << 2
    case UserSetPassword => 1 << 3
    case UserEditBaseInfo => 1 << 4
    case UserEditPermission => 1 << 5
    case ControllerShowList => 1 << 6
    case ControllerTier2Rating => 1 << 7
    case ControllerEditRating => 1 << 8
    case ControllerShowRecord => 1 << 9
    case ControllerCreateRecord => 1 << 10
    case ControllerDeleteRecord => 1 << 11
    case ControllerChangeUnderMonitor => 1 << 12
    case ControllerChangeSolo => 1 << 13
    case ControllerChangeGuest => 1 << 14
    case ActivityPublish => 1 << 15
    case ActivityShowList => 1 << 16
    case ActivityEdit => 1 << 17
    case ActivityEditState => 1 << 18
    case ActivityEditPilotState => 1 << 19
    case ActivityDelete => 1 << 20
    case AuditLogShow => 1 << 21
    case TicketShowList => 1 << 22
    case TicketReply => 1 << 23
    case TicketRemove => 1 << 24
    case FlightPlanShowList => 1 << 25
    case FlightPlanChangeLock => 1 << 26
    case FlightPlanDelete => 1 << 27
    case ClientManagerEntry => 1 << 28
    case ClientSendMessage => 1 << 29
    case ClientKill => 1 << 30
    case ClientSendBroadcastMessage => 1 << 31
  }

  /** The `name` field the permission record gives each node, which is
      also the node's key in the name-to-node table.  The names are
      pairwise distinct: each is recognised back as its own node. */
  function Name(n: PermissionNode): (s: string)
    ensures Recognise(s) == n
  {
    match n
    case AdminEntry => "AdminEntry"
    case UserShowList => "UserShowList"
    case UserGetProfile => "UserGetProfile"
    case UserSetPassword => "UserSetPassword"
    case UserEditBaseInfo => "UserEditBaseInfo"
    case UserEditPermission => "UserEditPermission"
    case ControllerShowList => "ControllerShowList"
    case ControllerTier2Rating => "ControllerTier2Rating"
    case ControllerEditRating => "ControllerEditRating"
    case ControllerShowRecord => "ControllerShowRecord"
    case ControllerCreateRecord => "ControllerCreateRecord"
    case ControllerDeleteRecord => "ControllerDeleteRecord"
    case ControllerChangeUnderMonitor => "ControllerChangeUnderMonitor"
    case ControllerChangeSolo => "ControllerChangeSolo"
    case ControllerChangeGuest => "ControllerChangeGuest"
    case ActivityPublish => "ActivityPublish"
    case ActivityShowList => "ActivityShowList"
    case ActivityEdit => "ActivityEdit"
    case ActivityEditState => "ActivityEditState"
    case ActivityEditPilotState => "ActivityEditPilotState"
    case ActivityDelete => "ActivityDelete"
    case AuditLogShow => "AuditLogShow"
    case TicketShowList => "TicketShowList"
    case TicketReply => "TicketReply"
    case TicketRemove => "TicketRemove"
    case FlightPlanShowList => "FlightPlanShowList"
    case FlightPlanChangeLock => "FlightPlanChangeLock"
    case FlightPlanDelete => "FlightPlanDelete"
    case ClientManagerEntry => "ClientManagerEntry"
    case ClientSendMessage => "ClientSendMessage"
    case ClientKill => "ClientKill"
    case ClientSendBroadcastMessage => "ClientSendBroadcastMessage"
  }

  /** Position of a node in declaration order. */
  function Index(n: PermissionNode): (i: nat)
    ensures i < 32 && NodeAt(i) == n
  {
    match n
    case AdminEntry => 0
    case UserShowList => 1
    case UserGetProfile => 2
    case UserSetPassword => 3
    case UserEditBaseInfo => 4
    case UserEditPermission => 5
    case ControllerShowList => 6
    case ControllerTier2Rating => 7
    case ControllerEditRating => 8
    case ControllerShowRecord => 9
    case ControllerCreateRecord => 10
    case ControllerDeleteRecord => 11
    case ControllerChangeUnderMonitor => 12
    case ControllerChangeSolo => 13
    case ControllerChangeGuest => 14
    case ActivityPublish => 15
    case ActivityShowList => 16
    case ActivityEdit => 17
    case ActivityEditState => 18
    case ActivityEditPilotState => 19
    case ActivityDelete => 20
    case AuditLogShow => 21
    case TicketShowList => 22
    case TicketReply => 23
    case TicketRemove => 24
    case FlightPlanShowList => 25
    case FlightPlanChangeLock => 26
    case FlightPlanDelete => 27
    case ClientManagerEntry => 28
    case ClientSendMessage => 29
    case ClientKill => 30
    case ClientSendBroadcastMessage => 31
  }

  /** The bit a node occupies: its position in declaration order.
      Distinct nodes occupy distinct bits. */
  function Position(n: PermissionNode): (b: bv5)
    ensures NodeAtPosition(b) == n
  {
    match n
    case AdminEntry => 0
    case UserShowList => 1
    case UserGetProfile => 2
    case UserSetPassword => 3
    case UserEditBaseInfo => 4
    case UserEditPermission => 5
    case ControllerShowList => 6
    case ControllerTier2Rating => 7
    case ControllerEditRating => 8
    case ControllerShowRecord => 9
    case ControllerCreateRecord => 10
    case ControllerDeleteRecord => 11
    case ControllerChangeUnderMonitor => 12
    case ControllerChangeSolo => 13
    case ControllerChangeGuest => 14
    case ActivityPublish => 15
    case ActivityShowList => 16
    case ActivityEdit => 17
    case ActivityEditState => 18
    case ActivityEditPilotState => 19
    case ActivityDelete => 20
    case AuditLogShow => 21
    case TicketShowList => 22
    case TicketReply => 23
    case TicketRemove => 24
    case FlightPlanShowList => 25
    case FlightPlanChangeLock => 26
    case FlightPlanDelete => 27
    case ClientManagerEntry => 28
    case ClientSendMessage => 29
    case ClientKill => 30
    case ClientSendBroadcastMessage => 31
  }

  // ---------------------------------------------------------------
  // The name-to-node table

  /** The pairs the table is built from: every node under its own name,
      in declaration order. */
  function NodeTable(): (t: seq<(string, PermissionNode)>)
    ensures |t| == 32
    ensures forall n :: t[Index(n)] == (Name(n), n)
  {
    seq(32, i requires 0 <= i < 32 => (Name(NodeAt(i)), NodeAt(i)))
  }

  /** `get(key)` on a map built from `pairs`: a later pair overwrites an
      earlier one with the same key, so the last pair with the key
      answers; no pair with the key means `undefined`. */
  function Get(pairs: seq<(string, PermissionNode)>, key: string): (r: Option<PermissionNode>)
    ensures r.None? <==> forall i :: 0 <= i < |pairs| ==> pairs[i].0 != key
    ensures r.Some? ==> exists i :: 0 <= i < |pairs| && pairs[i] == (key, r.value)
                                    && forall j :: i < j < |pairs| ==> pairs[j].0 != key
    decreases |pairs|
  {
    if |pairs| == 0 then None
    else if pairs[|pairs| - 1].0 == key then Some(pairs[|pairs| - 1].1)
    else Get(pairs[..|pairs| - 1], key)
  }

  // ---------------------------------------------------------------
  // The permission record

  /** One entry of the record: the node's name and whether it is held
      (the display description is not modelled). */
  datatype Entry = Entry(name: string, hasPermission: bool)

  datatype PermissionData = PermissionData(entries: map<PermissionNode, Entry>)

  /** A permission record holds an entry for every node. */
  type Permission = d: PermissionData | forall n :: n in AllNodes() ==> n in d.entries
    witness PermissionData(map n | n in AllNodes() :: Entry(Name(n), false))

  /** The flag `new Permission(permission)` stores for node `n`:
      `(permission & node) == node`. */
  predicate Holds(mask: bv32, n: PermissionNode) {
    SubMask(Value(n), mask)
  }

  /** `new Permission(permission)`: bitwise `&` works on the int32 view
      of the number. */
  function NewPermission(permission: int): (p: Permission)
    ensures forall n :: EntryOf(p, n).name == Name(n)
    ensures forall n :: HasPermission(p, n) <==> Holds(ToInt32Bits(permission), n)
  {
    var mask := ToInt32Bits(permission);
    assert forall n :: HasPermission(FromMask(mask), n) <==> Holds(mask, n) by {
      forall n ensures HasPermission(FromMask(mask), n) <==> Holds(mask, n) {
        FlagIsHolds(mask, n);
      }
    }
    FromMask(mask)
  }

  /** The record built from a 32-bit mask: the entry of every node
      carries the node's name and the flag `(mask & node) == node`. */
  function FromMask(mask: bv32): (p: Permission)
    ensures forall n :: EntryOf(p, n).name == Name(n)
    ensures forall n :: EntryOf(p, n).hasPermission <==> BitSet(mask, Position(n))
  {
    var d := PermissionData(map n | n in AllNodes() :: Entry(Name(n), Holds(mask, n)));
    assert forall n :: n in d.entries by {
      forall n ensures n in d.entries {
        assert NodeAt(Index(n)) == n;
      }
    }
    assert forall n :: d.entries[n].hasPermission <==> BitSet(mask, Position(n)) by {
      forall n ensures d.entries[n].hasPermission <==> BitSet(mask, Position(n)) {
        HoldsIffBitSet(mask, n);
      }
    }
    d
  }

  /** The record's entry for node `n` (`permissionData[n]`). */
  function EntryOf(p: Permission, n: PermissionNode): Entry {
    assert NodeAt(Index(n)) == n;
    p.entries[n]
  }

  /** `hasPermission(node)`. */
  function HasPermission(p: Permission, n: PermissionNode): bool {
    EntryOf(p, n).hasPermission
  }

  /** `hasPermissionString(name)`: the node the table gives for the name,
      and false when it gives none. */
  function HasPermissionString(p: Permission, name: string): (r: bool)
    ensures Get(NodeTable(), name).None? ==> !r
    ensures Get(NodeTable(), name).Some? ==> (r <==> HasPermission(p, Get(NodeTable(), name).value))
  {
    match Get(NodeTable(), name)
    case None => false
    case Some(n) => EntryOf(p, n).hasPermission
  }

  /** `hasAnyPermissions(...nodes)`: the first held node answers true. */
  method HasAnyPermissions(p: Permission, nodes: seq<PermissionNode>) returns (r: bool)
    ensures r <==> exists i :: 0 <= i < |nodes| && HasPermission(p, nodes[i])
    ensures |nodes| == 0 ==> !r
  {
    for k := 0 to |nodes|
      invariant forall i :: 0 <= i < k ==> !HasPermission(p, nodes[i])
    {
      if HasPermission(p, nodes[k]) {
        return true;
      }
    }
    return false;
  }

  /** `hasPermissions(...nodes)`: the first missing node answers false. */
  method HasPermissions(p: Permission, nodes: seq<PermissionNode>) returns (r: bool)
    ensures r <==> forall i :: 0 <= i < |nodes| ==> HasPermission(p, nodes[i])
    ensures |nodes| == 0 ==> r
  {
    for k := 0 to |nodes|
      invariant forall i :: 0 <= i < k ==> HasPermission(p, nodes[i])
    {
      if !HasPermission(p, nodes[k]) {
        return false;
      }
    }
    return true;
  }

  // ---------------------------------------------------------------
  // Properties of the node values

  /** Each node's value is the single bit at its position. */
  lemma ValueIsBit(n: PermissionNode)
    ensures Value(n) == Bit(Position(n))
  {
    match n
    case AdminEntry =>
    case UserShowList =>
    case UserGetProfile =>
    case UserSetPassword =>
    case UserEditBaseInfo =>
    case UserEditPermission =>
    case ControllerShowList =>
    case ControllerTier2Rating =>
    case ControllerEditRating =>
    case ControllerShowRecord =>
    case ControllerCreateRecord =>
    case ControllerDeleteRecord =>
    case ControllerChangeUnderMonitor =>
    case ControllerChangeSolo =>
    case ControllerChangeGuest =>
    case ActivityPublish =>
    case ActivityShowList =>
    case ActivityEdit =>
    case ActivityEditState =>
    case ActivityEditPilotState =>
    case ActivityDelete =>
    case AuditLogShow =>
    case TicketShowList =>
    case TicketReply =>
    case TicketRemove =>
    case FlightPlanShowList =>
    case FlightPlanChangeLock =>
    case FlightPlanDelete =>
    case ClientManagerEntry =>
    case ClientSendMessage =>
    case ClientKill =>
    case ClientSendBroadcastMessage =>
  }

  /** The node at a bit position. */
  function NodeAtPosition(b: bv5): PermissionNode {
    if b == 0 then AdminEntry
    else if b == 1 then UserShowList
    else if b == 2 then UserGetProfile
    else if b == 3 then UserSetPassword
    else if b == 4 then UserEditBaseInfo
    else if b == 5 then UserEditPermission
    else if b == 6 then ControllerShowList
    else if b == 7 then ControllerTier2Rating
    else if b == 8 then ControllerEditRating
    else if b == 9 then ControllerShowRecord
    else if b == 10 then ControllerCreateRecord
    else if b == 11 then ControllerDeleteRecord
    else if b == 12 then ControllerChangeUnderMonitor
    else if b == 13 then ControllerChangeSolo
    else if b == 14 then ControllerChangeGuest
    else if b == 15 then ActivityPublish
    else if b == 16 then ActivityShowList
    else if b == 17 then ActivityEdit
    else if b == 18 then ActivityEditState
    else if b == 19 then ActivityEditPilotState
    else if b == 20 then ActivityDelete
    else if b == 21 then AuditLogShow
    else if b == 22 then TicketShowList
    else if b == 23 then TicketReply
    else if b == 24 then TicketRemove
    else if b == 25 then FlightPlanShowList
    else if b == 26 then FlightPlanChangeLock
    else if b == 27 then FlightPlanDelete
    else if b == 28 then ClientManagerEntry
    else if b == 29 then ClientSendMessage
    else if b == 30 then ClientKill
    else ClientSendBroadcastMessage
  }

  /** Distinct nodes occupy distinct bits. */
  lemma PositionInjective(a: PermissionNode, b: PermissionNode)
    ensures Position(a) == Position(b) <==> a == b
  {
  }

  lemma IndexInjective(a: PermissionNode, b: PermissionNode)
    ensures Index(a) == Index(b) <==> a == b
  {
  }

  /** The record's flag for `n` is the bit of the mask at `n`'s position. */
  lemma HoldsIffBitSet(mask: bv32, n: PermissionNode)
    ensures Holds(mask, n) <==> BitSet(mask, Position(n))
  {
    ValueIsBit(n);
    MaskTest(mask, Position(n));
  }

  /** Every node's value has exactly one bit set, at its position. */
  lemma NodeIsSingleBit(n: PermissionNode, j: bv5)
    ensures BitSet(Value(n), j) <==> j == Position(n)
  {
    ValueIsBit(n);
    BitHasOneBit(Position(n), j);
  }

  /** The values of distinct nodes are distinct bits. */
  lemma NodesAreDistinctBits(a: PermissionNode, b: PermissionNode)
    requires a != b
    ensures Value(a) != Value(b)
  {
    PositionInjective(a, b);
    NodeIsSingleBit(a, Position(a));
    NodeIsSingleBit(b, Position(a));
  }

  // Proof helpers for `IndexOfNodeAt`: the 32 cases in four groups, so
  // that each proof stays small.

  lemma IndexOfNodeAtBelow8(i: nat)
    requires i < 8
    ensures Index(NodeAt(i)) == i
  {
  }

  lemma IndexOfNodeAtBelow16(i: nat)
    requires 8 <= i < 16
    ensures Index(NodeAt(i)) == i
  {
  }

  lemma IndexOfNodeAtBelow24(i: nat)
    requires 16 <= i < 24
    ensures Index(NodeAt(i)) == i
  {
  }

  lemma IndexOfNodeAtBelow32(i: nat)
    requires 24 <= i < 32
    ensures Index(NodeAt(i)) == i
  {
  }

  /** `NodeAt` and `Index` are inverse: the declaration order lists
      every node exactly once. */
  lemma IndexOfNodeAt(i: nat)
    requires i < 32
    ensures Index(NodeAt(i)) == i
  {
    if i < 8 {
      IndexOfNodeAtBelow8(i);
    } else if i < 16 {
      IndexOfNodeAtBelow16(i);
    } else if i < 24 {
      IndexOfNodeAtBelow24(i);
    } else {
      IndexOfNodeAtBelow32(i);
    }
  }

  // ---------------------------------------------------------------
  // Properties of the name table

  /** A proof helper with no counterpart in the program: it tells the 32
      record names apart by their length and at most two of their
      letters, counted from the end (the last, the one before it, or the
      ninth from the end), which makes `Name` visibly injective. */
  function Recognise(s: string): PermissionNode {
    var k := |s|;
    var last := if k > 0 then s[k - 1] else ' ';
    var prev := if k > 1 then s[k - 2] else ' ';
    var ninth := if k > 8 then s[k - 9] else ' ';
    if k == 10 then (if last == 'y' then AdminEntry else ClientKill)
    else if k == 11 then TicketReply
    else if k == 12 then
      (if last == 'w' then AuditLogShow
       else if last == 'e' then TicketRemove
       else if prev == 's' then UserShowList
       else ActivityEdit)
    else if k == 14 then
      (if prev == 'l' then UserGetProfile else if prev == 't' then ActivityDelete else TicketShowList)
    else if k == 15 then (if last == 'd' then UserSetPassword else ActivityPublish)
    else if k == 16 then
      (if last == 'o' then UserEditBaseInfo else if last == 't' then ActivityShowList else FlightPlanDelete)
    else if k == 17 then (if prev == 't' then ActivityEditState else ClientSendMessage)
    else if k == 18 then
      (if last == 'n' then UserEditPermission
       else if last == 'y' then ClientManagerEntry
       else if ninth == 'r' then ControllerShowList
       else FlightPlanShowList)
    else if k == 20 then
      (if last == 'g' then ControllerEditRating
       else if last == 'd' then ControllerShowRecord
       else if last == 'o' then ControllerChangeSolo
       else FlightPlanChangeLock)
    else if k == 21 then (if last == 'g' then ControllerTier2Rating else ControllerChangeGuest)
    else if k == 22 then
      (if last == 'e' then ActivityEditPilotState
       else if ninth == 'a' then ControllerCreateRecord
       else ControllerDeleteRecord)
    else if k == 26 then ClientSendBroadcastMessage
    else ControllerChangeUnderMonitor
  }

  /** Distinct nodes have distinct record names. */
  lemma NameInjective(a: PermissionNode, b: PermissionNode)
    ensures Name(a) == Name(b) <==> a == b
  {
  }

  /** No two pairs of the table share a key, so no pair is overwritten. */
  lemma TableKeysDistinct(i: nat, j: nat)
    requires i < j < |NodeTable()|
    ensures NodeTable()[i].0 != NodeTable()[j].0
  {
    NameInjective(NodeAt(i), NodeAt(j));
    IndexOfNodeAt(i);
    IndexOfNodeAt(j);
  }

  /** Looking a node's record name up gives back the node. */
  lemma LookupByName(n: PermissionNode)
    ensures Get(NodeTable(), Name(n)) == Some(n)
  {
    var i := Index(n);
    assert NodeTable()[i].0 == Name(n);
    var r := Get(NodeTable(), Name(n));
    var k :| 0 <= k < |NodeTable()| && NodeTable()[k] == (Name(n), r.value);
    NameInjective(NodeAt(k), n);
  }

  /** The table gives a node only for that node's record name. */
  lemma LookupOnlyNames(s: string, n: PermissionNode)
    requires Get(NodeTable(), s) == Some(n)
    ensures s == Name(n)
  {
  }

  /** `hasPermissionString(name)` holds exactly when `name` is the record
      name of a node the record holds. */
  lemma HasPermissionStringByName(p: Permission, name: string)
    ensures HasPermissionString(p, name) <==> exists n :: Name(n) == name && HasPermission(p, n)
  {
    if exists n :: Name(n) == name && HasPermission(p, n) {
      var n :| Name(n) == name && HasPermission(p, n);
      LookupByName(n);
    }
    if HasPermissionString(p, name) {
      var n := Get(NodeTable(), name).value;
      LookupOnlyNames(name, n);
    }
  }

  // ---------------------------------------------------------------
  // Properties of the permission record

  /** Mask 0 grants no node. */
  lemma ZeroGrantsNothing(n: PermissionNode)
    ensures !HasPermission(FromMask(0), n)
  {
    BitOfZero(Position(n));
  }

  /** The all-ones mask grants every node. */
  lemma AllOnesGrantsEverything(n: PermissionNode)
    ensures HasPermission(FromMask(0xFFFF_FFFF), n)
  {
    BitOfOnes(Position(n));
  }

  /** The sign bit alone grants `ClientSendBroadcastMessage` and nothing else. */
  lemma SignBitIsBroadcast(n: PermissionNode)
    ensures HasPermission(FromMask(0x8000_0000), n) <==> n == ClientSendBroadcastMessage
  {
    assert Value(ClientSendBroadcastMessage) == 0x8000_0000;
    NodeIsSingleBit(ClientSendBroadcastMessage, Position(n));
    PositionInjective(n, ClientSendBroadcastMessage);
  }

  /** Only the low 32 bits of the number decide the record: numbers that
      differ by a multiple of 2^32 build the same record. */
  lemma LowBitsDecide(permission: int, k: int)
    ensures NewPermission(permission + k * TwoTo32) == NewPermission(permission)
  {
    assert (permission + k * TwoTo32) % TwoTo32 == permission % TwoTo32;
  }

  /** `-1` is all ones in the int32 view, so it grants every node. */
  lemma MinusOneGrantsEverything(n: PermissionNode)
    ensures HasPermission(NewPermission(-1), n)
  {
    ToInt32BitsOfMinusOne();
    AllOnesGrantsEverything(n);
  }

  /** More bits never lose a permission: if every bit of `p` is a bit of
      `q`, every node held under `p` is held under `q`. */
  lemma MoreBitsMorePermissions(p: bv32, q: bv32, n: PermissionNode)
    requires SubMask(p, q)
    requires HasPermission(FromMask(p), n)
    ensures HasPermission(FromMask(q), n)
  {
    SubMaskKeepsBit(p, q, Position(n));
  }

  /** The values of a list of nodes. */
  function Values(nodes: seq<PermissionNode>): (vs: seq<bv32>)
    ensures |vs| == |nodes| && forall i :: 0 <= i < |nodes| ==> vs[i] == Value(nodes[i])
  {
    seq(|nodes|, i requires 0 <= i < |nodes| => Value(nodes[i]))
  }

  /** Bitwise-or of the values of a list of nodes. */
  function MaskOf(nodes: seq<PermissionNode>): bv32 {
    Union(Values(nodes))
  }

  /** A node is held exactly when its bit meets the mask. */
  lemma HoldsIffMeets(mask: bv32, n: PermissionNode)
    ensures Holds(mask, n) <==> Meets(mask, Value(n))
  {
    ValueIsBit(n);
    SingleBitMeets(mask, Position(n));
  }

  /** Holding every listed node is holding their combined mask. */
  lemma HoldsAllIffSubMask(mask: bv32, nodes: seq<PermissionNode>)
    ensures (forall i :: 0 <= i < |nodes| ==> Holds(mask, nodes[i])) <==> SubMask(MaskOf(nodes), mask)
  {
    UnionSubMask(Values(nodes), mask);
  }

  /** Holding some listed node is the combined mask meeting the mask. */
  lemma HoldsAnyIffMeets(mask: bv32, nodes: seq<PermissionNode>)
    ensures (exists i :: 0 <= i < |nodes| && Holds(mask, nodes[i])) <==> Meets(mask, MaskOf(nodes))
  {
    UnionMeets(Values(nodes), mask);
    forall i | 0 <= i < |nodes| ensures Holds(mask, nodes[i]) <==> Meets(mask, Values(nodes)[i]) {
      HoldsIffMeets(mask, nodes[i]);
    }
  }

  /** The record built from `mask` holds `n` exactly when `mask` covers
      `n`'s value. */
  lemma FlagIsHolds(mask: bv32, n: PermissionNode)
    ensures HasPermission(FromMask(mask), n) <==> Holds(mask, n)
  {
    HoldsIffBitSet(mask, n);
  }

  /** `hasPermissions(...nodes)` on the record of `mask` answers whether
      every bit of the nodes' combined mask is set in `mask`. */
  lemma AllHeldIsSubMask(mask: bv32, nodes: seq<PermissionNode>)
    ensures (forall i :: 0 <= i < |nodes| ==> HasPermission(FromMask(mask), nodes[i]))
            <==> SubMask(MaskOf(nodes), mask)
  {
    forall i | 0 <= i < |nodes| ensures HasPermission(FromMask(mask), nodes[i]) <==> Holds(mask, nodes[i]) {
      FlagIsHolds(mask, nodes[i]);
    }
    HoldsAllIffSubMask(mask, nodes);
  }

  /** `hasAnyPermissions(...nodes)` on the record of `mask` answers whether
      some bit of the nodes' combined mask is set in `mask`. */
  lemma SomeHeldIsMeets(mask: bv32, nodes: seq<PermissionNode>)
    ensures (exists i :: 0 <= i < |nodes| && HasPermission(FromMask(mask), nodes[i]))
            <==> Meets(mask, MaskOf(nodes))
  {
    forall i | 0 <= i < |nodes| ensures HasPermission(FromMask(mask), nodes[i]) <==> Holds(mask, nodes[i]) {
      FlagIsHolds(mask, nodes[i]);
    }
    HoldsAnyIffMeets(mask, nodes);
  }
}

=== FILE: server_config.dfy ===
/**
 * The server-configuration store: the default input limits, the form
 * rules built from them for the username, password, e-mail and CID
 * fields, loading the configuration, and the rating and facility name
 * lookups.
 */
module ServerConfig {
  import opened JsCore
  import Session

  /** Input limits of the registration and profile forms. */
  datatype Limits = Limits(
    usernameLengthMin: int, usernameLengthMax: int,
    passwordLengthMin: int, passwordLengthMax: int,
    emailLengthMin: int, emailLengthMax: int,
    cidMin: int, cidMax: int)

  /** The limits the store starts with (and keeps: nothing assigns them). */
  const DefaultLimits: Limits := Limits(4, 16, 6, 64, 4, 64, 1, 9999)

  // ---------------------------------------------------------------
  // Length rules

  /** A `min`/`max` form rule on a string: its length in code points lies
      in `[min, max]`. */
  predicate WithinLength(min: int, max: int, value: string) {
    min <= |value| <= max
  }

  predicate UsernameLengthOk(limits: Limits, value: string) {
    WithinLength(limits.usernameLengthMin, limits.usernameLengthMax, value)
  }

  predicate PasswordLengthOk(limits: Limits, value: string) {
    WithinLength(limits.passwordLengthMin, limits.passwordLengthMax, value)
  }

  predicate EmailLengthOk(limits: Limits, value: string) {
    WithinLength(limits.emailLengthMin, limits.emailLengthMax, value)
  }

  /** Under the default limits the three length rules accept exactly
      4..16, 6..64 and 4..64 characters. */
  lemma DefaultLengthRules(value: string)
    ensures UsernameLengthOk(DefaultLimits, value) <==> 4 <= |value| <= 16
    ensures PasswordLengthOk(DefaultLimits, value) <==> 6 <= |value| <= 64
    ensures EmailLengthOk(DefaultLimits, value) <==> 4 <= |value| <= 64
  {
  }

  // ---------------------------------------------------------------
  // The username pattern /^[a-zA-Z_][a-zA-Z0-9_]+$/

  predicate IsLetter(c: char) {
    ('a' <= c <= 'z') || ('A' <= c <= 'Z')
  }

  predicate IsWordStart(c: char) {
    IsLetter(c) || c == '_'
  }

  predicate IsWordChar(c: char) {
    IsWordStart(c) || IsDecimalDigit(c)
  }

  /** What the pattern means: a letter or underscore, then at least one
      more character, every one a letter, digit or underscore. */
  predicate UsernamePattern(s: string) {
    && |s| >= 2
    && IsWordStart(s[0])
    && forall i :: 1 <= i < |s| ==> IsWordChar(s[i])
  }

  /** States of the matcher for the pattern, read left to right. */
  datatype MatchState = AtStart | AfterFirst | InTail | Dead

  function MatchStep(q: MatchState, c: char): MatchState {
    match q
    case AtStart => if IsWordStart(c) then AfterFirst else Dead
    case AfterFirst => if IsWordChar(c) then InTail else Dead
    case InTail => if IsWordChar(c) then InTail else Dead
    case Dead => Dead
  }

  function MatchRun(q: MatchState, s: string): MatchState
    decreases |s|
  {
    if s == [] then q else MatchRun(MatchStep(q, s[0]), s[1..])
  }

  /** The anchored regular expression accepts `s`. */
  predicate MatchesUsernameRegex(s: string) {
    MatchRun(AtStart, s) == InTail
  }

  predicate AllWordChars(s: string) {
    forall i :: 0 <= i < |s| ==> IsWordChar(s[i])
  }

  lemma {:induction false} DeadStaysDead(s: string)
    ensures MatchRun(Dead, s) == Dead
    decreases |s|
  {
    if s != [] {
      DeadStaysDead(s[1..]);
    }
  }

  /** Past the first character the matcher only asks whether every
      further character is a word character. */
  lemma {:induction false} TailRun(q: MatchState, s: string)
    requires q == AfterFirst || q == InTail
    ensures s == [] ==> MatchRun(q, s) == q
    ensures s != [] ==> MatchRun(q, s) == (if AllWordChars(s) then InTail else Dead)
    decreases |s|
  {
    if s != [] {
      if IsWordChar(s[0]) {
        TailRun(InTail, s[1..]);
        if !AllWordChars(s) {
          var i :| 0 <= i < |s| && !IsWordChar(s[i]);
          assert !IsWordChar(s[1..][i - 1]);
        }
      } else {
        DeadStaysDead(s[1..]);
      }
    }
  }

  /** The regular expression and its reading agree on every string. */
  lemma UsernameRegexMeansPattern(s: string)
    ensures MatchesUsernameRegex(s) <==> UsernamePattern(s)
  {
    if s != [] {
      if IsWordStart(s[0]) {
        TailRun(AfterFirst, s[1..]);
        assert AllWordChars(s[1..]) <==> forall i :: 1 <= i < |s| ==> IsWordChar(s[i]) by {
          if AllWordChars(s[1..]) {
            forall i | 1 <= i < |s| ensures IsWordChar(s[i]) {
              assert s[i] == s[1..][i - 1];
            }
          }
        }
      } else {
        DeadStaysDead(s[1..]);
      }
    }
  }

  /** The pattern never admits a name shorter than two characters, nor
      one that starts with a digit. */
  lemma UsernamePatternShape(s: string)
    requires MatchesUsernameRegex(s)
    ensures |s| >= 2 && !IsDecimalDigit(s[0])
  {
    UsernameRegexMeansPattern(s);
  }

  // ---------------------------------------------------------------
  // The CID rules: /^[0-9]+$/ and the validator chain

  predicate CidPattern(value: string) {
    |value| > 0 && AllDecimalDigits(value)
  }

  /** Why the CID validator refused, one reason per message. */
  datatype CidFailure = NotANumber | Negative | BelowMin | AboveMax

  /** Where the validator's checks lead before the availability request. */
  datatype CidStage = Fails(reason: CidFailure) | AskAvailability(cid: int)

  /** The ordered checks of the CID validator; the first that fails decides. */
  function CidChain(limits: Limits, value: string): (r: CidStage)
    ensures r == Fails(NotANumber) <==> ParseInt(value).None?
    ensures r == Fails(Negative) <==> ParseInt(value).Some? && ParseInt(value).value < 0
    ensures r == Fails(BelowMin) <==> ParseInt(value).Some? && 0 <= ParseInt(value).value < limits.cidMin
    ensures r == Fails(AboveMax) <==>
              ParseInt(value).Some? && 0 <= ParseInt(value).value && limits.cidMin <= ParseInt(value).value
              && ParseInt(value).value > limits.cidMax
    ensures r.AskAvailability? <==>
              ParseInt(value).Some? && 0 <= ParseInt(value).value
              && limits.cidMin <= ParseInt(value).value <= limits.cidMax
    ensures r.AskAvailability? ==> r.cid == ParseInt(value).value
  {
    var parsed := ParseInt(value);
    if parsed.None? then Fails(NotANumber)
    else if parsed.value < 0 then Fails(Negative)
    else if parsed.value < limits.cidMin then Fails(BelowMin)
    else if parsed.value > limits.cidMax then Fails(AboveMax)
    else AskAvailability(parsed.value)
  }

  datatype CidVerdict = CidRefused(reason: CidFailure) | CidAvailable | CidTaken | CidCheckFailed

  /** The custom CID validator alone: the chain, then `checkCID`.  The
      field runs the pattern rule first; see `CidField`. */
  function CidValidator(limits: Limits, value: string, reply: Reply<bool>): (v: CidVerdict)
    ensures v.CidRefused? <==> CidChain(limits, value).Fails?
    ensures v == CidAvailable ==> CidChain(limits, value).AskAvailability?
    ensures v == CidAvailable <==>
              CidChain(limits, value).AskAvailability?
              && Session.CheckCid(CidChain(limits, value).cid, reply).outcome == Returned(true)
  {
    match CidChain(limits, value)
    case Fails(reason) => CidRefused(reason)
    case AskAvailability(cid) =>
      match Session.CheckCid(cid, reply).outcome
      case Returned(ok) => if ok then CidAvailable else CidTaken
      case Threw => CidCheckFailed
  }

  /** Input that passes the pattern rule always parses, to a number that
      is never negative: the "less than 0" message cannot be reached. */
  lemma DigitsNeverNegative(limits: Limits, value: string)
    requires CidPattern(value)
    ensures CidChain(limits, value) != Fails(NotANumber)
    ensures CidChain(limits, value) != Fails(Negative)
  {
    ParseIntOfDigits(value);
  }

  /** With the default limits, a digit-only CID reaches the availability
      request exactly when its value lies in 1..9999. */
  lemma DefaultCidReachesAvailability(value: string)
    requires CidPattern(value)
    ensures AllDigits(value, 10)
    ensures CidChain(DefaultLimits, value).AskAvailability? <==> 1 <= DigitsValue(value, 10) <= 9999
  {
    ParseIntOfDigits(value);
  }

  lemma ParseIntStopsAtLetter()
    ensures ParseInt("12a") == Some(12)
  {
    var s := "12a";
    assert !IsWhiteSpace(s[0]);
    assert TrimStart(s) == s;
    assert s[1..] == "2a" && "2a"[1..] == "a";
    assert LeadingDigits("a", 10) == 0;
    assert LeadingDigits(s, 10) == 2;
    assert s[..2] == "12";
    assert "12"[..1] == "1" && "1"[..0] == "";
    assert DigitsValue("12", 10) == 12;
  }

  lemma ParseIntReadsHex()
    ensures ParseInt("0x10") == Some(16)
  {
    var s := "0x10";
    assert !IsWhiteSpace(s[0]);
    assert TrimStart(s) == s;
    assert s[2..] == "10" && "10"[1..] == "0" && "0"[1..] == "";
    assert LeadingDigits("10", 16) == 2;
    assert "10"[..2] == "10";
    assert "10"[..1] == "1" && "1"[..0] == "";
    assert DigitsValue("10", 16) == 16;
  }

  /** The chain reads only the longest numeric prefix, so text the
      pattern rule refuses can still be sent to the availability check,
      hexadecimal included. */
  lemma ChainIsLenient()
    ensures !CidPattern("12a") && CidChain(DefaultLimits, "12a") == AskAvailability(12)
    ensures !CidPattern("0x10") && CidChain(DefaultLimits, "0x10") == AskAvailability(16)
  {
    assert !IsDecimalDigit("12a"[2]);
    assert !IsDecimalDigit("0x10"[1]);
    ParseIntStopsAtLetter();
    ParseIntReadsHex();
  }

  // ---------------------------------------------------------------
  // Whole-field validation

  /** A failed rule of a form field. */
  datatype FieldError =
    | BadCharacters             // a pattern rule
    | BadLength                 // a min/max rule
    | BadEmail                  // the `type: 'email'` rule
    | AlreadyTaken              // the availability check answered false
    | CheckFailed               // the availability request was rejected
    | BadCid(reason: CidFailure)  // a refusal of the CID validator's chain

  /** One rule of a field, with the error it reports on the field's value
      when it runs (`None` when it passes).  A built-in rule (pattern,
      min/max, type) lets an empty value through, because no field is
      marked required; a custom validator always runs. */
  datatype Rule = Rule(builtIn: bool, verdict: Option<FieldError>)

  predicate Runs(rule: Rule, value: string) {
    !(rule.builtIn && value == "")
  }

  /** The rule runs and reports an error. */
  predicate FailsOn(rule: Rule, value: string) {
    Runs(rule, value) && rule.verdict.Some?
  }

  /** How the form library validates a field: the rules run in order and
      the first that fails decides the field's error; the rules after it
      do not run. */
  function Validate(value: string, rules: seq<Rule>): (e: Option<FieldError>)
    ensures e.None? <==> forall i :: 0 <= i < |rules| ==> !FailsOn(rules[i], value)
    ensures e.Some? ==>
              exists i :: && 0 <= i < |rules| && FailsOn(rules[i], value) && rules[i].verdict == e
                          && forall j :: 0 <= j < i ==> !FailsOn(rules[j], value)
    decreases |rules|
  {
    if rules == [] then None
    else if FailsOn(rules[0], value) then rules[0].verdict
    else
      var rest := rules[1..];
      assert forall i :: 0 < i < |rules| ==> rules[i] == rest[i - 1];
      Validate(value, rest)
  }

  /** The verdict of a built-in rule that accepts exactly when `ok`. */
  function Verdict(ok: bool, error: FieldError): (v: Option<FieldError>)
    ensures v.None? <==> ok
  {
    if ok then None else Some(error)
  }

  /** The verdict of an availability rule, given how its check settled. */
  function AvailabilityVerdict(answer: Outcome<bool>): (v: Option<FieldError>)
    ensures v.None? <==> answer == Returned(true)
  {
    match answer
    case Returned(ok) => if ok then None else Some(AlreadyTaken)
    case Threw => Some(CheckFailed)
  }

  /** The rules of `usernameLimit`, in order: pattern, length, availability. */
  function UsernameRules(limits: Limits, value: string, reply: Reply<bool>): seq<Rule> {
    [ Rule(true, Verdict(MatchesUsernameRegex(value), BadCharacters)),
      Rule(true, Verdict(UsernameLengthOk(limits, value), BadLength)),
      Rule(false, AvailabilityVerdict(Session.CheckUsername(value, reply).outcome)) ]
  }

  /** The username field: an empty name passes (the pattern and length
      rules let it through and the availability check answers true
      without asking); otherwise the pattern, the length and the
      availability decide, in that order. */
  function UsernameField(limits: Limits, value: string, reply: Reply<bool>): (e: Option<FieldError>)
    ensures e.None? <==>
              value == "" ||
              (MatchesUsernameRegex(value) && UsernameLengthOk(limits, value)
               && Session.CheckUsername(value, reply).outcome == Returned(true))
    ensures e == Some(BadCharacters) <==> value != "" && !MatchesUsernameRegex(value)
    ensures e == Some(BadLength) <==>
              value != "" && MatchesUsernameRegex(value) && !UsernameLengthOk(limits, value)
  {
    if value != "" && !MatchesUsernameRegex(value) then Some(BadCharacters)
    else if value != "" && !UsernameLengthOk(limits, value) then Some(BadLength)
    else AvailabilityVerdict(Session.CheckUsername(value, reply).outcome)
  }

  lemma UsernameFieldFollowsRules(limits: Limits, value: string, reply: Reply<bool>)
    ensures UsernameField(limits, value, reply) == Validate(value, UsernameRules(limits, value, reply))
  {
    var rules := UsernameRules(limits, value, reply);
    assert rules[1..][1..] == [rules[2]];
  }

  /** Every accepted non-empty username fits the pattern and the limits;
      with the defaults it has 4 to 16 characters. */
  lemma AcceptedUsernameShape(value: string, reply: Reply<bool>)
    requires value != "" && UsernameField(DefaultLimits, value, reply).None?
    ensures UsernamePattern(value) && 4 <= |value| <= 16
  {
    UsernameRegexMeansPattern(value);
  }

  /** A name the pattern accepts is read back from the availability query
      unchanged: letters, digits and underscores never end a parameter. */
  lemma PatternNameReadsBack(value: string, reply: Reply<bool>)
    requires MatchesUsernameRegex(value)
    ensures var q := Session.CheckUsername(value, reply).request;
      q.Some? && Session.ParamValue(q.value[|"/users/availability?username="|..]) == value
  {
    UsernameRegexMeansPattern(value);
    assert forall i :: 0 <= i < |value| ==> !Session.EndsParam(value[i]) by {
      forall i | 0 <= i < |value| ensures !Session.EndsParam(value[i]) {
        assert i == 0 || IsWordChar(value[i]);
      }
    }
    Session.UsernameQueryRoundTrip(value, reply);
  }

  /** The rule of `passwordLimit`: the length alone. */
  function PasswordRules(limits: Limits, value: string): seq<Rule> {
    [Rule(true, Verdict(PasswordLengthOk(limits, value), BadLength))]
  }

  /** The password field: an empty password passes; any other passes
      exactly when its length is within the limits. */
  function PasswordField(limits: Limits, value: string): (e: Option<FieldError>)
    ensures e.None? <==> value == "" || PasswordLengthOk(limits, value)
    ensures e.Some? ==> e == Some(BadLength)
  {
    if value != "" && !PasswordLengthOk(limits, value) then Some(BadLength) else None
  }

  lemma PasswordFieldFollowsRules(limits: Limits, value: string)
    ensures PasswordField(limits, value) == Validate(value, PasswordRules(limits, value))
  {
    assert PasswordRules(limits, value)[1..] == [];
  }

  /** The rules of `emailLimit`, in order: the address format (the form
      library's own e-mail pattern, `isEmail`), the length, availability. */
  function EmailRules(limits: Limits, isEmail: string -> bool, value: string, reply: Reply<bool>): seq<Rule> {
    [ Rule(true, Verdict(isEmail(value), BadEmail)),
      Rule(true, Verdict(EmailLengthOk(limits, value), BadLength)),
      Rule(false, AvailabilityVerdict(Session.CheckEmail(value, reply).outcome)) ]
  }

  /** The e-mail field: an empty address passes; otherwise the format,
      the length and the availability decide, in that order. */
  function EmailField(limits: Limits, isEmail: string -> bool, value: string, reply: Reply<bool>): (e: Option<FieldError>)
    ensures e.None? <==>
              value == "" ||
              (isEmail(value) && EmailLengthOk(limits, value)
               && Session.CheckEmail(value, reply).outcome == Returned(true))
    ensures e == Some(BadEmail) <==> value != "" && !isEmail(value)
    ensures e == Some(BadLength) <==> value != "" && isEmail(value) && !EmailLengthOk(limits, value)
  {
    if value != "" && !isEmail(value) then Some(BadEmail)
    else if value != "" && !EmailLengthOk(limits, value) then Some(BadLength)
    else AvailabilityVerdict(Session.CheckEmail(value, reply).outcome)
  }

  lemma EmailFieldFollowsRules(limits: Limits, isEmail: string -> bool, value: string, reply: Reply<bool>)
    ensures EmailField(limits, isEmail, value, reply) == Validate(value, EmailRules(limits, isEmail, value, reply))
  {
    var rules := EmailRules(limits, isEmail, value, reply);
    assert rules[1..][1..] == [rules[2]];
  }

  /** The error the CID validator reports, by how it ended. */
  function CidVerdictError(v: CidVerdict): (e: Option<FieldError>)
    ensures e.None? <==> v == CidAvailable
    ensures v.CidRefused? <==> e.Some? && e.value.BadCid?
  {
    match v
    case CidRefused(reason) => Some(BadCid(reason))
    case CidAvailable => None
    case CidTaken => Some(AlreadyTaken)
    case CidCheckFailed => Some(CheckFailed)
  }

  /** The rules of `cidLimit`, in order: the digits-only pattern, then
      the validator. */
  function CidRules(limits: Limits, value: string, reply: Reply<bool>): seq<Rule> {
    [ Rule(true, Verdict(CidPattern(value), BadCharacters)),
      Rule(false, CidVerdictError(CidValidator(limits, value, reply))) ]
  }

  /** The CID field: a non-empty value with a non-digit is refused by the
      pattern before the validator runs; otherwise the validator decides,
      and an empty value reaches it and fails to parse. */
  function CidField(limits: Limits, value: string, reply: Reply<bool>): (e: Option<FieldError>)
    ensures e == Some(BadCharacters) <==> value != "" && !CidPattern(value)
    ensures value == "" ==> e == Some(BadCid(NotANumber))
  {
    if value != "" && !CidPattern(value) then Some(BadCharacters)
    else CidVerdictError(CidValidator(limits, value, reply))
  }

  lemma CidFieldFollowsRules(limits: Limits, value: string, reply: Reply<bool>)
    ensures CidField(limits, value, reply) == Validate(value, CidRules(limits, value, reply))
  {
    assert CidRules(limits, value, reply)[1..][1..] == [];
  }

  /** The CID field accepts exactly a digits-only value within the limits
      that the availability check calls free. */
  lemma {:induction false} CidFieldAccepts(limits: Limits, value: string, reply: Reply<bool>)
    ensures CidField(limits, value, reply).None? <==>
              && CidPattern(value)
              && limits.cidMin <= DigitsValue(value, 10) <= limits.cidMax
              && Session.CheckCid(DigitsValue(value, 10), reply).outcome == Returned(true)
  {
    if CidPattern(value) {
      ParseIntOfDigits(value);
    }
  }

  /** The pattern rule stops the text the lenient chain would send on:
      "12a" is refused although the chain alone asks about CID 12. */
  lemma PatternRuleGuardsChain(reply: Reply<bool>)
    ensures CidValidator(DefaultLimits, "12a", Reply(200, true)) == CidAvailable
    ensures CidField(DefaultLimits, "12a", reply) == Some(BadCharacters)
  {
    ChainIsLenient();
    assert Session.CheckCid(12, Reply(200, true)).outcome == Returned(true);
  }

  /** No field is required: an empty username, password or address
      passes, while an empty CID reaches the validator and is not a
      number. */
  lemma EmptyValues(limits: Limits, isEmail: string -> bool, reply: Reply<bool>)
    ensures UsernameField(limits, "", reply).None?
    ensures PasswordField(limits, "").None?
    ensures EmailField(limits, isEmail, "", reply).None?
    ensures CidField(limits, "", reply) == Some(BadCid(NotANumber))
  {
  }

  // ---------------------------------------------------------------
  // Configuration and name lookups

  /** One row of the server's rating or facility table. */
  datatype NameEntry = NameEntry(id: int, shortName: string, longName: string)

  datatype SizeLimit = SizeLimit(maxAllowSize: int, allowedExt: seq<string>)

  datatype Config = Config(
    imageLimit: SizeLimit,
    fileLimit: SizeLimit,
    emailSendInterval: int,
    facilities: seq<NameEntry>,
    ratings: seq<NameEntry>)

  /** The configuration the store starts with: zero limits, empty tables. */
  const DefaultConfig: Config :=
    Config(SizeLimit(0, []), SizeLimit(0, []), 0, [], [])

  /** The store's `config`; `None` is the `null` a failed load leaves. */
  type ConfigState = Option<Config>

  datatype LoadResult = LoadResult(config: ConfigState, errorShown: bool)

  /** `getConfigFromServer`: the fetched value replaces the configuration
      even when it is null, after the error message is shown. */
  function LoadConfig(current: ConfigState, fetched: Reply<Option<Config>>): (r: Outcome<LoadResult>)
    ensures fetched.Rejected? <==> r.Threw?
    ensures fetched.Reply? ==> r.value.config == fetched.body
    ensures fetched.Reply? ==> (r.value.errorShown <==> fetched.body.None?)
  {
    match fetched
    case Rejected => Threw
    case Reply(_, data) => Returned(LoadResult(data, data.None?))
  }

  /** Reading `table[value + 1]` and one field of it: a missing row is
      `undefined`, and reading its field throws. */
  function Row(table: seq<NameEntry>, value: int): (r: Outcome<NameEntry>)
    ensures r.Returned? <==> -1 <= value < |table| - 1
    ensures r.Returned? ==> r.value == table[value + 1]
  {
    if 0 <= value + 1 < |table| then Returned(table[value + 1]) else Threw
  }

  function ShortName(row: Outcome<NameEntry>): Outcome<string> {
    match row
    case Returned(e) => Returned(e.shortName)
    case Threw => Threw
  }

  function LongName(row: Outcome<NameEntry>): Outcome<string> {
    match row
    case Returned(e) => Returned(e.longName)
    case Threw => Threw
  }

  function Ratings(c: ConfigState): Outcome<seq<NameEntry>> {
    if c.Some? then Returned(c.value.ratings) else Threw
  }

  function Facilities(c: ConfigState): Outcome<seq<NameEntry>> {
    if c.Some? then Returned(c.value.facilities) else Threw
  }

  function Lookup(table: Outcome<seq<NameEntry>>, value: int): Outcome<NameEntry> {
    match table
    case Returned(t) => Row(t, value)
    case Threw => Threw
  }

  function GetRatingShortName(c: ConfigState, rating: int): (r: Outcome<string>)
    ensures r.Returned? <==> c.Some? && 0 <= rating + 1 < |c.value.ratings|
    ensures r.Returned? ==> r.value == c.value.ratings[rating + 1].shortName
  {
    ShortName(Lookup(Ratings(c), rating))
  }

  function GetRatingLongName(c: ConfigState, rating: int): (r: Outcome<string>)
    ensures r.Returned? <==> c.Some? && 0 <= rating + 1 < |c.value.ratings|
    ensures r.Returned? ==> r.value == c.value.ratings[rating + 1].longName
  {
    LongName(Lookup(Ratings(c), rating))
  }

  function GetFacilityShortName(c: ConfigState, facility: int): (r: Outcome<string>)
    ensures r.Returned? <==> c.Some? && 0 <= facility + 1 < |c.value.facilities|
    ensures r.Returned? ==> r.value == c.value.facilities[facility + 1].shortName
  {
    ShortName(Lookup(Facilities(c), facility))
  }

  function GetFacilityLongName(c: ConfigState, facility: int): (r: Outcome<string>)
    ensures r.Returned? <==> c.Some? && 0 <= facility + 1 < |c.value.facilities|
    ensures r.Returned? ==> r.value == c.value.facilities[facility + 1].longName
  {
    LongName(Lookup(Facilities(c), facility))
  }

  /** The controller ratings, from `Ban = -1` up to `Administrator = 12`. */
  datatype Rating =
    | Ban | Normal | Observer | STU1 | STU2 | STU3 | CTR1 | CTR2 | CTR3
    | Instructor1 | Instructor2 | Instructor3 | Supervisor | Administrator

  const AllRatings: seq<Rating> :=
    [Ban, Normal, Observer, STU1, STU2, STU3, CTR1, CTR2, CTR3,
     Instructor1, Instructor2, Instructor3, Supervisor, Administrator]

  function RatingValue(r: Rating): int {
    match r
    case Ban => -1
    case Normal => 0
    case Observer => 1
    case STU1 => 2
    case STU2 => 3
    case STU3 => 4
    case CTR1 => 5
    case CTR2 => 6
    case CTR3 => 7
    case Instructor1 => 8
    case Instructor2 => 9
    case Instructor3 => 10
    case Supervisor => 11
    case Administrator => 12
  }

  /** The `+ 1` of the lookups turns each rating into its position in
      enum order: a table listing the ratings in that order gives every
      rating, `Ban` included, its own row. */
  lemma RatingRowIsEnumPosition(r: Rating)
    ensures 0 <= RatingValue(r) + 1 < |AllRatings|
    ensures AllRatings[RatingValue(r) + 1] == r
  {
  }

  lemma RatingLookupInFullTable(c: Config, r: Rating)
    requires |c.ratings| == |AllRatings|
    ensures GetRatingShortName(Some(c), RatingValue(r)) == Returned(c.ratings[RatingValue(r) + 1].shortName)
    ensures RatingValue(r) == -1 ==> GetRatingLongName(Some(c), RatingValue(r)) == Returned(c.ratings[0].longName)
  {
    RatingRowIsEnumPosition(r);
  }

  /** Until a configuration arrives, and after a load that yields null,
      every name lookup throws. */
  lemma LookupsBeforeLoadThrow(rating: int, facility: int)
    ensures GetRatingShortName(Some(DefaultConfig), rating) == Threw
    ensures GetFacilityLongName(Some(DefaultConfig), facility) == Threw
    ensures forall c :: LoadConfig(c, Reply(200, None)) == Returned(LoadResult(None, true))
    ensures GetRatingLongName(None, rating) == Threw && GetFacilityShortName(None, facility) == Threw
  {
  }
}

=== FILE: session.dfy ===
/**
 * The user store's session lifecycle: login, registration, silent
 * refresh of the access token shortly before it expires, logout, and
 * the restore of a stored session at start-up.
 *
 * The store's state is a value; every store function is a transition
 * that also takes the settled HTTP reply it awaits, the decoder of a
 * token's `exp` claim, and the current time in milliseconds.  A
 * `setTimeout` handle is kept in the state and fires only through the
 * explicit `OnTimeout` event.
 */
module Session {
  import opened JsCore
  import opened Permissions
  import MediaUrl

  /** The fields of a user record the store reads. */
  datatype User = User(id: int, username: string, avatarUrl: string, permission: int)

  /** Payload of a successful login, registration or refresh. */
  datatype LoginData = LoginData(user: User, token: string, flushToken: string)

  /** A `setTimeout` handle held in the store's `timer` variable; it is
      `live` until it fires or is cleared. */
  datatype Timeout = Timeout(delayMs: int, live: bool)

  datatype State = State(
    isLogin: bool,
    userData: Option<User>,          // None is the empty object `{}`
    token: string,
    flushToken: string,
    permission: Option<Permission>,  // None until a user record arrives
    timer: Option<Timeout>,          // None is `null`
    storage: map<string, string>)    // the browser's local storage

  const TokenKey: string := "token"
  const FlushTokenKey: string := "flush_token"

  /** Time, in seconds, before expiry at which the access token is refreshed. */
  const RefreshLeadSeconds: int := 60

  /** What the store needs from its surroundings: the backend URL and the
      `exp` claim (seconds since the epoch) of a token. */
  datatype Env = Env(backendUrl: string, exp: string -> int)

  /** The store as created, over whatever local storage already holds. */
  function NewStore(storage: map<string, string>): (s: State)
    ensures !s.isLogin && s.timer.None? && s.token == "" && s.flushToken == ""
    ensures s.storage == storage
  {
    State(false, None, "", "", None, None, storage)
  }

  /** The user record as the store keeps it: avatar URL normalised. */
  function Received(backendUrl: string, u: User): (v: User)
    ensures v.avatarUrl == MediaUrl.Normalise(backendUrl, u.avatarUrl)
    ensures v.(avatarUrl := u.avatarUrl) == u
  {
    u.(avatarUrl := MediaUrl.Normalise(backendUrl, u.avatarUrl))
  }

  /** Logged in with a user record and permissions that match it, and
      local storage mirroring both tokens. */
  predicate Consistent(s: State) {
    s.isLogin ==>
      && s.userData.Some?
      && s.permission == Some(NewPermission(s.userData.value.permission))
      && TokenKey in s.storage && s.storage[TokenKey] == s.token
      && FlushTokenKey in s.storage && s.storage[FlushTokenKey] == s.flushToken
  }

  /** `decodeResponse`: take a login payload as the current session. */
  function DecodeResponse(s: State, d: LoginData, backendUrl: string): (t: State)
    ensures t.isLogin
    ensures t.token == d.token && t.flushToken == d.flushToken
    ensures t.userData == Some(Received(backendUrl, d.user))
    ensures t.permission == Some(NewPermission(d.user.permission))
    ensures t.storage == s.storage[TokenKey := d.token][FlushTokenKey := d.flushToken]
    ensures t.timer == s.timer
    ensures Consistent(t)
  {
    var u := Received(backendUrl, d.user);
    s.(isLogin := true, userData := Some(u), permission := Some(NewPermission(u.permission)),
       token := d.token, flushToken := d.flushToken,
       storage := s.storage[TokenKey := d.token][FlushTokenKey := d.flushToken])
  }

  /** `verifyTokenExpired(t)`: despite its name, true while the token is
      still valid, i.e. its expiry lies strictly after `now`. */
  function VerifyTokenExpired(exp: string -> int, now: int, t: string): (valid: bool)
    ensures valid <==> now < exp(t) * 1000
  {
    exp(t) * 1000 > now
  }

  /** `setFlushTokenTimer`: when logged in and no handle is held, schedule
      a refresh `RefreshLeadSeconds` before the access token expires. */
  function SetFlushTokenTimer(s: State, exp: string -> int, now: int): (t: State)
    ensures t.(timer := s.timer) == s
    ensures s.isLogin && s.timer.None? ==>
              t.timer.Some? && t.timer.value.live
              && now + t.timer.value.delayMs + RefreshLeadSeconds * 1000 == exp(s.token) * 1000
    ensures !(s.isLogin && s.timer.None?) ==> t == s
  {
    if s.isLogin && s.timer.None? then
      s.(timer := Some(Timeout((exp(s.token) - RefreshLeadSeconds) * 1000 - now, true)))
    else s
  }

  /** `clearTimeout(timer)`: the handle stays in the variable but no
      longer fires. */
  function ClearTimer(timer: Option<Timeout>): (r: Option<Timeout>)
    ensures r.Some? <==> timer.Some?
    ensures r.Some? ==> !r.value.live && r.value.delayMs == timer.value.delayMs
  {
    if timer.Some? then Some(timer.value.(live := false)) else None
  }

  /** `logout`: forget the session, both stored tokens and any pending
      refresh.  Neither the `timer` variable nor `permission` is reset. */
  function Logout(s: State): (t: State)
    ensures !t.isLogin && t.userData.None? && t.token == "" && t.flushToken == ""
    ensures TokenKey !in t.storage && FlushTokenKey !in t.storage
    ensures forall k :: k != TokenKey && k != FlushTokenKey ==>
              (k in t.storage <==> k in s.storage) && (k in s.storage ==> t.storage[k] == s.storage[k])
    ensures t.timer.Some? <==> s.timer.Some?
    ensures t.timer.Some? ==> !t.timer.value.live
    ensures t.permission == s.permission
  {
    s.(isLogin := false, userData := None, token := "", flushToken := "",
       storage := s.storage - {TokenKey, FlushTokenKey}, timer := ClearTimer(s.timer))
  }

  datatype Transition = Transition(state: State, outcome: Outcome<bool>)

  /** First half of `flushAccessToken`: before the refresh request is sent
      (with the flush token as bearer) the store counts as logged out. */
  function FlushStart(s: State): (t: State)
    ensures !t.isLogin
    ensures t == s.(isLogin := false)
  {
    s.(isLogin := false)
  }

  /** Second half of `flushAccessToken`, once the refresh request settles.
      It reads the store as it is then, so a login that settled in between
      decides what a failed refresh answers. */
  function FlushFinish(s: State, reply: Reply<LoginData>, env: Env, now: int): (r: Transition)
    ensures reply.Rejected? ==> r == Transition(s, Threw)
    ensures reply.Reply? ==> r.outcome == Returned(r.state.isLogin)
    ensures reply.Reply? && reply.status == 200 ==>
              && r.state.isLogin && r.state.token == reply.body.token
              && r.state.flushToken == (if reply.body.flushToken != "" then reply.body.flushToken else s.flushToken)
              && r.state.userData == Some(Received(env.backendUrl, reply.body.user))
              && r.state.timer.Some? && r.state.timer.value.live
    ensures reply.Reply? && reply.status != 200 ==>
              && r.state.(timer := s.timer) == s
              && (s.isLogin <==> r.state.timer.Some?)
              && (s.isLogin ==> r.state.timer.value.live)
    ensures Consistent(s) ==> Consistent(r.state)
  {
    match reply
    case Rejected => Transition(s, Threw)
    case Reply(status, d) =>
      var s1 :=
        if status == 200 then
          var u := Received(env.backendUrl, d.user);
          var flush := if d.flushToken != "" then d.flushToken else s.flushToken;
          s.(userData := Some(u), permission := Some(NewPermission(u.permission)),
             token := d.token, flushToken := flush,
             storage := s.storage[TokenKey := d.token][FlushTokenKey := flush],
             isLogin := true)
        else s;
      var s2 := SetFlushTokenTimer(s1.(timer := None), env.exp, now);
      Transition(s2, Returned(s2.isLogin))
  }

  /** `flushAccessToken`: exchange the flush token for a new access token. */
  function FlushAccessToken(s: State, reply: Reply<LoginData>, env: Env, now: int): (r: Transition)
    ensures reply.Rejected? ==> r == Transition(s.(isLogin := false), Threw)
    ensures reply.Reply? ==> r.outcome == Returned(r.state.isLogin)
    ensures reply.Reply? ==> (r.state.isLogin <==> reply.status == 200)
    ensures reply.Reply? && reply.status == 200 ==>
              && r.state.token == reply.body.token
              && r.state.flushToken == (if reply.body.flushToken != "" then reply.body.flushToken else s.flushToken)
              && r.state.userData == Some(Received(env.backendUrl, reply.body.user))
              && r.state.timer.Some? && r.state.timer.value.live
    ensures reply.Reply? && reply.status != 200 ==>
              r.state == s.(isLogin := false, timer := None)
    ensures Consistent(s) ==> Consistent(r.state)
  {
    FlushFinish(FlushStart(s), reply, env, now)
  }

  /** `login`: on a 200 reply take the session, drop the old handle and
      schedule the refresh. */
  function Login(s: State, reply: Reply<LoginData>, env: Env, now: int): (r: Transition)
    ensures reply.Rejected? ==> r == Transition(s, Threw)
    ensures reply.Reply? ==> (r.outcome == Returned(true) <==> reply.status == 200)
    ensures reply.Reply? && reply.status != 200 ==> r == Transition(s, Returned(false))
    ensures reply.Reply? && reply.status == 200 ==>
              && r.state.isLogin && r.state.token == reply.body.token
              && r.state.flushToken == reply.body.flushToken
              && r.state.timer.Some? && r.state.timer.value.live
    ensures Consistent(s) ==> Consistent(r.state)
  {
    match reply
    case Rejected => Transition(s, Threw)
    case Reply(status, d) =>
      if status == 200 then
        var t := DecodeResponse(s, d, env.backendUrl).(timer := None);
        Transition(SetFlushTokenTimer(t, env.exp, now), Returned(true))
      else Transition(s, Returned(false))
  }

  /** `register`: on a 200 reply take the session, but schedule no refresh. */
  function Register(s: State, reply: Reply<LoginData>, backendUrl: string): (r: Transition)
    ensures reply.Rejected? ==> r == Transition(s, Threw)
    ensures reply.Reply? ==> (r.outcome == Returned(true) <==> reply.status == 200)
    ensures reply.Reply? && reply.status == 200 ==> r.state.isLogin
    ensures r.state.timer == s.timer
    ensures Consistent(s) ==> Consistent(r.state)
  {
    match reply
    case Rejected => Transition(s, Threw)
    case Reply(status, d) =>
      if status == 200 then Transition(DecodeResponse(s, d, backendUrl), Returned(true))
      else Transition(s, Returned(false))
  }

  /** The refresh timer fires: a live handle is spent and the refresh is
      sent, so the store counts as logged out until it settles; a cleared
      or spent handle does nothing. */
  function FireTimer(s: State): (t: State)
    ensures s.timer.Some? && s.timer.value.live ==>
              t == s.(isLogin := false, timer := Some(s.timer.value.(live := false)))
    ensures !(s.timer.Some? && s.timer.value.live) ==> t == s
    ensures Consistent(s) ==> Consistent(t)
  {
    if s.timer.Some? && s.timer.value.live then
      FlushStart(s.(timer := Some(s.timer.value.(live := false))))
    else s
  }

  /** The refresh timer fires and its request settles before anything
      else happens to the store. */
  function OnTimeout(s: State, reply: Reply<LoginData>, env: Env, now: int): (t: State)
    ensures !(s.timer.Some? && s.timer.value.live) ==> t == s
    ensures s.timer.Some? && s.timer.value.live ==>
              t == FlushAccessToken(s.(timer := Some(s.timer.value.(live := false))), reply, env, now).state
    ensures Consistent(s) ==> Consistent(t)
  {
    if s.timer.Some? && s.timer.value.live then FlushFinish(FireTimer(s), reply, env, now).state
    else s
  }

  // ---------------------------------------------------------------
  // Start-up restore

  /** Which branch of `initUser` runs. */
  datatype InitPath =
    | NoStoredSession          // no (or an empty) stored flush token
    | ProfilePath(bearer: string)  // stored access token still valid: fetch the profile
    | RefreshPath              // access token unusable, flush token still valid
    | BothStale                // neither token is valid any more

  /** A stored string counts only when present and non-empty (truthiness). */
  function Stored(storage: map<string, string>, key: string): Option<string> {
    if key in storage && storage[key] != "" then Some(storage[key]) else None
  }

  function ChoosePath(storage: map<string, string>, exp: string -> int, now: int): (p: InitPath)
    ensures p.NoStoredSession? <==> Stored(storage, FlushTokenKey).None?
    ensures p.ProfilePath? <==>
              && Stored(storage, FlushTokenKey).Some?
              && Stored(storage, TokenKey).Some? && VerifyTokenExpired(exp, now, storage[TokenKey])
    ensures p.ProfilePath? ==> p.bearer == storage[TokenKey]
    ensures p.RefreshPath? ==> Stored(storage, FlushTokenKey).Some? && VerifyTokenExpired(exp, now, storage[FlushTokenKey])
    ensures p.BothStale? ==> Stored(storage, FlushTokenKey).Some? && !VerifyTokenExpired(exp, now, storage[FlushTokenKey])
  {
    var storeToken := Stored(storage, TokenKey);
    var storeFlush := Stored(storage, FlushTokenKey);
    if storeFlush.None? then NoStoredSession
    else if storeToken.Some? && VerifyTokenExpired(exp, now, storeToken.value) then
      ProfilePath(storeToken.value)
    else if VerifyTokenExpired(exp, now, storeFlush.value) then RefreshPath
    else BothStale
  }

  datatype InitResult = InitResult(state: State, path: InitPath, completed: bool)

  /** `initUser`: restore a stored session.  `profile` is the settled
      reply of the profile request and `session` that of the refresh
      request; each is consulted only on its own path. */
  function InitUser(s: State, profile: Reply<User>, session: Reply<LoginData>, env: Env, now: int): (r: InitResult)
    ensures r.path == ChoosePath(s.storage, env.exp, now)
    ensures r.path.NoStoredSession? || r.path.BothStale? ==>
              r.completed && r.state.(timer := s.timer) == s
    ensures r.path.ProfilePath? && profile.Rejected? ==> r == InitResult(s, r.path, false)
    ensures r.path.ProfilePath? && profile.Reply? && profile.status == 200 ==>
              && r.completed && r.state.isLogin
              && r.state.token == r.path.bearer == s.storage[TokenKey]
              && r.state.flushToken == s.storage[FlushTokenKey]
              && r.state.userData == Some(Received(env.backendUrl, profile.body))
              && (s.timer.None? ==> r.state.timer.Some? && r.state.timer.value.live)
    ensures r.path.RefreshPath? && session.Rejected? ==>
              !r.completed && !r.state.isLogin && r.state.flushToken == s.storage[FlushTokenKey]
    ensures r.path.RefreshPath? && session.Reply? && session.status == 200 ==>
              r.completed && r.state.isLogin && r.state.token == session.body.token
              && r.state.timer.Some? && r.state.timer.value.live
    ensures (r.path.ProfilePath? && profile.Reply? && profile.status != 200)
            || (r.path.RefreshPath? && session.Reply? && session.status != 200) ==>
              && r.completed && !r.state.isLogin && r.state.token == ""
              && TokenKey !in r.state.storage && FlushTokenKey !in r.state.storage
    ensures Consistent(s) ==> Consistent(r.state)
  {
    var path := ChoosePath(s.storage, env.exp, now);
    match path
    case NoStoredSession => InitResult(SetFlushTokenTimer(s, env.exp, now), path, true)
    case BothStale => InitResult(SetFlushTokenTimer(s, env.exp, now), path, true)
    case ProfilePath(storeToken) =>
      var storeFlush := s.storage[FlushTokenKey];
      (match profile
       case Rejected => InitResult(s, path, false)
       case Reply(status, user) =>
         var s1 :=
           if status == 200 then
             var u := Received(env.backendUrl, user);
             s.(isLogin := true, token := storeToken, flushToken := storeFlush,
                userData := Some(u), permission := Some(NewPermission(u.permission)),
                storage := s.storage[TokenKey := storeToken][FlushTokenKey := storeFlush])
           else Logout(s);
         InitResult(SetFlushTokenTimer(s1, env.exp, now), path, true))
    case RefreshPath =>
      var s1 := s.(flushToken := s.storage[FlushTokenKey]);
      var f := FlushAccessToken(s1, session, env, now);
      (match f.outcome
       case Threw => InitResult(f.state, path, false)
       case Returned(ok) =>
         var s2 := if ok then f.state.(isLogin := true) else Logout(f.state);
         InitResult(SetFlushTokenTimer(s2, env.exp, now), path, true))
  }

  // ---------------------------------------------------------------
  // Properties of whole sessions

  /** What can happen to the store, each at a moment `at` (milliseconds).
      A timer-driven refresh is two events, its firing and its settling,
      so other events can come between them.  `RefreshSettles` is allowed
      at any point, also when no refresh is in flight: the runs covered
      include every interleaving the program can produce, and more. */
  datatype Event =
    | DoLogin(loginReply: Reply<LoginData>, at: int)
    | DoRegister(registerReply: Reply<LoginData>, at: int)
    | DoLogout(at: int)
    | TimerFires(at: int)
    | RefreshSettles(refreshReply: Reply<LoginData>, at: int)
    | DoInit(profileReply: Reply<User>, sessionReply: Reply<LoginData>, at: int)

  function Step(s: State, e: Event, env: Env): State {
    match e
    case DoLogin(reply, at) => Login(s, reply, env, at).state
    case DoRegister(reply, _) => Register(s, reply, env.backendUrl).state
    case DoLogout(_) => Logout(s)
    case TimerFires(_) => FireTimer(s)
    case RefreshSettles(reply, at) => FlushFinish(s, reply, env, at).state
    case DoInit(profile, session, at) => InitUser(s, profile, session, env, at).state
  }

  function Run(s: State, events: seq<Event>, env: Env): State
    decreases |events|
  {
    if events == [] then s else Run(Step(s, events[0], env), events[1..], env)
  }

  /** Whatever happens, a logged-in store holds the user record, the
      permissions decoded from it, and both tokens in local storage. */
  lemma {:induction false} RunKeepsConsistent(s: State, events: seq<Event>, env: Env)
    requires Consistent(s)
    ensures Consistent(Run(s, events, env))
    decreases |events|
  {
    if events != [] {
      RunKeepsConsistent(Step(s, events[0], env), events[1..], env);
    }
  }

  lemma NewStoreIsConsistent(storage: map<string, string>)
    ensures Consistent(NewStore(storage))
  {
  }

  /** Logging out twice is logging out once. */
  lemma LogoutIdempotent(s: State)
    ensures Logout(Logout(s)) == Logout(s)
  {
    assert Logout(s).storage - {TokenKey, FlushTokenKey} == Logout(s).storage;
  }

  /** A refresh that the server rejects leaves the store logged out with a
      spent handle in `timer`: no refresh is scheduled again until the
      next login. */
  lemma RejectedRefreshStopsRefreshing(s: State, env: Env, now: int)
    requires s.timer.Some? && s.timer.value.live
    ensures var t := OnTimeout(s, Rejected, env, now);
      && !t.isLogin && t.timer.Some? && !t.timer.value.live
      && t.token == s.token && t.storage == s.storage
      && (forall later: int :: SetFlushTokenTimer(t, env.exp, later) == t)
      && (forall reply: Reply<LoginData>, later: int :: OnTimeout(t, reply, env, later) == t)
  {
  }

  /** A refresh that the server grants keeps the user logged in and arms
      exactly one new timer, due one lead time before the new token expires. */
  lemma GrantedRefreshReschedules(s: State, d: LoginData, env: Env, now: int)
    requires s.timer.Some? && s.timer.value.live
    ensures var t := OnTimeout(s, Reply(200, d), env, now);
      && t.isLogin && t.token == d.token
      && t.timer == Some(Timeout((env.exp(d.token) - RefreshLeadSeconds) * 1000 - now, true))
  {
  }

  /** A login that settles while a timer-driven refresh is in flight, and
      a refresh that then fails: the failed refresh answers true, because
      the login has set `isLogin` again, and it overwrites the live handle
      the login armed (that timer would still fire in the program) with a
      new one, timed from the moment the refresh settled. */
  lemma LoginDuringRefresh(s: State, d: LoginData, status: int, body: LoginData, env: Env, t0: int, t1: int, t2: int)
    requires s.timer.Some? && s.timer.value.live && status != 200
    ensures var fired := Step(s, TimerFires(t0), env);
      var mid := Step(fired, DoLogin(Reply(200, d), t1), env);
      var settled := FlushFinish(mid, Reply(status, body), env, t2);
      && !fired.isLogin
      && mid.isLogin && mid.timer == Some(Timeout((env.exp(d.token) - RefreshLeadSeconds) * 1000 - t1, true))
      && settled.outcome == Returned(true)
      && settled.state == mid.(timer := Some(Timeout((env.exp(d.token) - RefreshLeadSeconds) * 1000 - t2, true)))
      && Run(s, [TimerFires(t0), DoLogin(Reply(200, d), t1), RefreshSettles(Reply(status, body), t2)], env)
         == settled.state
  {
    var events := [TimerFires(t0), DoLogin(Reply(200, d), t1), RefreshSettles(Reply(status, body), t2)];
    assert events[1..] == [DoLogin(Reply(200, d), t1), RefreshSettles(Reply(status, body), t2)];
    assert events[1..][1..] == [RefreshSettles(Reply(status, body), t2)];
    var fired := Step(s, TimerFires(t0), env);
    var mid := Step(fired, DoLogin(Reply(200, d), t1), env);
    var last := Step(mid, RefreshSettles(Reply(status, body), t2), env);
    assert Run(last, [], env) == last;
    assert Run(mid, events[1..][1..], env) == last;
    assert Run(fired, events[1..], env) == last;
  }

  /** A token that is still valid was valid at every earlier moment. */
  lemma ValidityIsMonotone(exp: string -> int, t: string, earlier: int, now: int)
    requires earlier <= now && VerifyTokenExpired(exp, now, t)
    ensures VerifyTokenExpired(exp, earlier, t)
  {
  }

  // ---------------------------------------------------------------
  // Availability checks

  /** A check that may short-circuit: the request it sends (if any) and
      how it settles. */
  datatype Check = Check(request: Option<string>, outcome: Outcome<bool>)

  /** The answer of an availability request: the reply's payload for any
      resolved status. */
  function Answer(reply: Reply<bool>): Outcome<bool> {
    match reply
    case Rejected => Threw
    case Reply(_, available) => Returned(available)
  }

  /** `checkCID`: a CID of zero or below counts as available without asking. */
  function CheckCid(cid: int, reply: Reply<bool>): (c: Check)
    ensures cid <= 0 ==> c == Check(None, Returned(true))
    ensures cid > 0 ==> c.request == Some("/users/availability?cid=" + NumberToString(cid))
    ensures cid > 0 ==> (c.outcome == Threw <==> reply.Rejected?)
  {
    if cid <= 0 then Check(None, Returned(true))
    else Check(Some("/users/availability?cid=" + NumberToString(cid)), Answer(reply))
  }

  /** `checkUsername`: the empty name counts as available without asking. */
  function CheckUsername(username: string, reply: Reply<bool>): (c: Check)
    ensures username == "" ==> c == Check(None, Returned(true))
    ensures username != "" ==> c.request == Some("/users/availability?username=" + username)
    ensures username != "" ==> (c.outcome == Threw <==> reply.Rejected?)
  {
    if username == "" then Check(None, Returned(true))
    else Check(Some("/users/availability?username=" + username), Answer(reply))
  }

  /** `checkEmail`: the empty address counts as available without asking. */
  function CheckEmail(email: string, reply: Reply<bool>): (c: Check)
    ensures email == "" ==> c == Check(None, Returned(true))
    ensures email != "" ==> c.request == Some("/users/availability?email=" + email)
    ensures email != "" ==> (c.outcome == Threw <==> reply.Rejected?)
  {
    if email == "" then Check(None, Returned(true))
    else Check(Some("/users/availability?email=" + email), Answer(reply))
  }

  /** A character that ends a query parameter's value. */
  predicate EndsParam(c: char) {
    c == '&' || c == '#'
  }

  /** The raw value of the query parameter whose text starts `rest`: the
      longest prefix without `&` or `#`. */
  function ParamValue(rest: string): (v: string)
    ensures v <= rest
    ensures forall i :: 0 <= i < |v| ==> !EndsParam(v[i])
    ensures |v| < |rest| ==> EndsParam(rest[|v|])
    decreases |rest|
  {
    if rest == [] || EndsParam(rest[0]) then [] else [rest[0]] + ParamValue(rest[1..])
  }

  /** A value is read back from a query verbatim exactly when it holds no
      `&` or `#`. */
  lemma ParamValueRoundTrip(value: string)
    ensures ParamValue(value) == value <==> forall i :: 0 <= i < |value| ==> !EndsParam(value[i])
  {
  }

  /** The name sent in the availability query reads back as the same name
      exactly when it holds no `&` or `#`. */
  lemma UsernameQueryRoundTrip(username: string, reply: Reply<bool>)
    requires username != ""
    ensures var q := CheckUsername(username, reply).request.value;
      var prefix := "/users/availability?username=";
      && StartsWith(q, prefix)
      && (ParamValue(q[|prefix|..]) == username <==> forall i :: 0 <= i < |username| ==> !EndsParam(username[i]))
  {
    var prefix := "/users/availability?username=";
    var q := prefix + username;
    assert q[|prefix|..] == username;
    assert q[..|prefix|] == prefix;
    ParamValueRoundTrip(username);
  }

  /** The address sent in the availability query reads back as the same
      address exactly when it holds no `&` or `#`. */
  lemma EmailQueryRoundTrip(email: string, reply: Reply<bool>)
    requires email != ""
    ensures var q := CheckEmail(email, reply).request.value;
      var prefix := "/users/availability?email=";
      && StartsWith(q, prefix)
      && (ParamValue(q[|prefix|..]) == email <==> forall i :: 0 <= i < |email| ==> !EndsParam(email[i]))
  {
    var prefix := "/users/availability?email=";
    var q := prefix + email;
    assert q[|prefix|..] == email;
    assert q[..|prefix|] == prefix;
    ParamValueRoundTrip(email);
  }

  /** The CID sent in the availability query reads back as the same number. */
  lemma CidQueryRoundTrip(cid: int, reply: Reply<bool>)
    requires cid > 0
    ensures var q := CheckCid(cid, reply).request.value;
      var prefix := "/users/availability?cid=";
      StartsWith(q, prefix) && ParseInt(q[|prefix|..]) == Some(cid)
  {
    var prefix := "/users/availability?cid=";
    var q := prefix + NumberToString(cid);
    assert q[|prefix|..] == NumberToString(cid);
    assert q[..|prefix|] == prefix;
    ParseIntOfNumberToString(cid);
  }
}

=== FILE: size_format.dfy ===
/**
 * `sizeToString`: choosing the unit in which a byte count is shown.
 * Below one kibibyte the count is written out exactly with a "B"
 * suffix; above, the count is divided by the largest unit not above it
 * (capped at GB) and shown with two decimals and that unit's suffix.
 */
module SizeFormat {
  import opened JsCore

  const KB: int := 1024
  const MB: int := 1024 * KB
  const GB: int := 1024 * MB

  datatype Unit = Kilo | Mega | Giga

  function Divisor(u: Unit): (d: int)
    ensures d == KB || d == MB || d == GB
  {
    match u
    case Kilo => KB
    case Mega => MB
    case Giga => GB
  }

  function Suffix(u: Unit): string {
    match u
    case Kilo => "KB"
    case Mega => "MB"
    case Giga => "GB"
  }

  function Rank(u: Unit): nat {
    match u
    case Kilo => 1
    case Mega => 2
    case Giga => 3
  }

  /** The text `sizeToString` returns: exact below 1024; otherwise the
      quotient `size / unit` (written with two decimals, not modelled)
      followed by the unit's suffix. */
  datatype SizeText = Exact(text: string) | Scaled(unit: Unit)

  function SizeToString(size: int): (r: SizeText)
    ensures r.Exact? <==> size < KB
    ensures r.Exact? ==> r.text == NumberToString(size) + "B"
    ensures r.Scaled? ==> Divisor(r.unit) <= size
    ensures r.Scaled? && r.unit != Giga ==> size < KB * Divisor(r.unit)
  {
    if size < KB then Exact(NumberToString(size) + "B")
    else if size < MB then Scaled(Kilo)
    else if size < GB then Scaled(Mega)
    else Scaled(Giga)
  }

  /** The unit shown is the largest not exceeding the size, so the shown
      quotient is at least 1, and below 1024 except in gigabytes. */
  lemma UnitIsLargestFitting(size: int, u: Unit)
    requires SizeToString(size) == Scaled(u)
    ensures forall v: Unit :: Divisor(v) <= size ==> Rank(v) <= Rank(u)
    ensures 1 <= size / Divisor(u)
    ensures u != Giga ==> size / Divisor(u) < 1024
  {
  }

  /** A larger size is never shown in a smaller unit. */
  lemma UnitIsMonotone(a: int, b: int)
    requires KB <= a <= b
    ensures Rank(SizeToString(a).unit) <= Rank(SizeToString(b).unit)
  {
  }

  /** The exact text reads back as the byte count it was made from. */
  lemma ExactTextReadsBack(size: int)
    requires size < KB
    ensures var t := SizeToString(size).text;
      |t| >= 2 && t[|t| - 1] == 'B' && ParseInt(t[..|t| - 1]) == Some(size)
  {
    var t := SizeToString(size).text;
    assert t[..|t| - 1] == NumberToString(size);
    ParseIntOfNumberToString(size);
  }

  /** The three unit thresholds. */
  lemma Thresholds()
    ensures MB == 1_048_576 && GB == 1_073_741_824
    ensures SizeToString(1023) == Exact("1023B")
    ensures SizeToString(1024) == Scaled(Kilo)
    ensures SizeToString(MB - 1) == Scaled(Kilo) && SizeToString(MB) == Scaled(Mega)
    ensures SizeToString(GB - 1) == Scaled(Mega) && SizeToString(GB) == Scaled(Giga)
  {
    assert NumberToString(1023) == "1023" by {
      assert Digits(1023) == Digits(102) + ['3'];
      assert Digits(102) == Digits(10) + ['2'];
      assert Digits(10) == Digits(1) + ['0'];
    }
  }
}
